=== FILE: README.md ===
# LuxAI StarterKit_1 agent: a Dafny model of the turn controller

This project models the per-turn decision controller of the StarterKit_1
agent for the Lux AI grid game (`StarterKit_1/agent.py`) together with its
per-unit record `UnitTracker` (`StarterKit_1/tracker.py`). Each turn the agent:

- refreshes its tracker table: one record per live unit id, each holding an
  optional committed destination;
- rebuilds the reservation ledger: `occupied` holds the units that cannot act,
  `reserved` holds the tracked destinations, and the restricted positions are
  the values of both;
- records every worker's position in a four-slot window;
- walks the units in order. Each unit that can act emits at most one
  action, a move or a city build. It emits none when it is a random walk
  whose drawn directions all leave the map. A unit that cannot act emits
  nothing;
- walks the city tiles in order. Each city tile that can act either spawns
  a worker or cart or does research. Each later tile counts the spawns
  already decided, so the spawning tiles come first. A city tile that
  cannot act emits nothing.

The model is functional. The game state is plain data (`Game.GameMap`,
`Game.Unit`, `Game.City`, `Game.Player`). Everything the agent keeps across
turns is an explicit `Agent.Memory` (trackers and position windows). The
state threaded through one turn is an explicit `Agent.TurnState` (trackers,
ledger, the two pending counters and the actions emitted so far).

Modules, leaf first:

- `Wrappers`: the `Option` datatype.
- `Geometry`: positions, directions, the `get_x_pos`/`get_y_pos` deltas, and
  Manhattan distance.
- `Game`: the abstract game state the agent reads.
- `Scans`: the row-major `get_resource_tiles` / `get_empty_tiles` scans.
- `Select`: the shared first-closest scan and the three closest-tile selectors.
- `Population`: the city-tile, spawn and unit-type thresholds.
- `Tracker`: `UnitTracker` and `unit_has_work`.
- `TrackerTable`: `update_unit_tracker_dict`.
- `Ledger`: occupied, reserved and restricted positions.
- `History`: the `deque(maxlen=4)` position windows and the stuck test.
- `Agent`: the action helpers, the worker/cart/city-tile decisions and the
  turn itself.

Collaborators that are not part of this model are parameters:

- distance is Manhattan;
- `Position.direction_to` is the function field `World.directionTo`;
- `random.choice` is a per-unit list of drawn directions, `World.draws`;
- `can_act`, `can_build` and `get_cargo_space_left` are fields of `Unit`
  and `CityTile`.

Two behaviours of the code worth knowing:

- The build test needs a cargo field of exactly 100, not at least 100
  (agent.py:125).
- `reserved_tiles` is rebuilt from the trackers at the start of each turn
  (agent.py:296-309). During the unit loop, only `collect_resource` and the
  random move write to it.
  `move_unit_to_empty_tile` commits the tracker but reserves nothing
  (`Agent.RelocationNotReserved`). So two full workers deciding from the same
  spot in one turn can be sent to the same empty tile.

## Model

| member | source | states |
|---|---|---|
| Geometry.Step | StarterKit_1/agent.py:229-231 | a drawn cardinal direction leads to a tile at Manhattan distance 1 from the unit |
| Geometry.StepInjective | StarterKit_1/agent.py:226-231 | the four cardinal steps from one tile reach four different tiles |
| Geometry.DeltasAxisAligned | StarterKit_1/agent.py:241-256 | the `get_x_pos` delta (`DeltaX`) is nonzero exactly for east and west, the `get_y_pos` delta (`DeltaY`) exactly for north and south, and a step followed by the opposite step returns to the start |
| Game.AllCityTiles | StarterKit_1/agent.py:108-109 | the flattened city-tile list holds exactly the tiles of the player's cities |
| Scans.RowTiles | StarterKit_1/agent.py:40-43 | the inner column loop visits exactly row y from column x on, left to right |
| Scans.GridTiles | StarterKit_1/agent.py:39-43 | the nested loops visit exactly the rows from y on, in row-major order |
| Scans.AllTiles | StarterKit_1/agent.py:39-41 | every map cell appears once, in row-major order |
| Scans.Filter | StarterKit_1/agent.py:42-43 | the kept cells are exactly the scanned cells passing the test |
| Scans.FilterSorted | StarterKit_1/agent.py:53-59 | filtering a row-major list keeps it in row-major order |
| Scans.ResourceTiles | StarterKit_1/agent.py:34-45 | the resource scan lists exactly the map's resource cells, in row-major order |
| Scans.EmptyTiles | StarterKit_1/agent.py:48-61 | the empty scan lists exactly the cells with no resource and no city tile, in row-major order |
| Select.ClosestFrom | StarterKit_1/agent.py:65-79 | the selection loop, from any point where it holds the first-closest eligible candidate so far, ends with the first eligible candidate at minimum distance, or None exactly when none is eligible |
| Select.ClosestIndex | StarterKit_1/agent.py:64-84 | the selection result is None iff no candidate is eligible, otherwise the first eligible candidate at minimum distance |
| Select.FirstClosestUnique | StarterKit_1/agent.py:75-79 | at most one index is the first eligible candidate at minimum distance, so the selection is fully determined |
| Select.ClosestResourceTile | StarterKit_1/agent.py:64-84 | the resource selector never returns a restricted tile, nor coal or uranium before that research; its pick is at least as close as every eligible tile; it returns None iff no tile is eligible |
| Select.ClosestEmptyTile | StarterKit_1/agent.py:87-101 | the empty selector never returns a restricted tile; its pick is at least as close as every unrestricted tile; None iff all are restricted |
| Select.ClosestCityTile | StarterKit_1/agent.py:104-115 | the city selector ignores the restricted set, returns a closest city tile, and None iff the player has no city tile; every tile before the pick in city/tile order is strictly farther, so ties go to the first |
| Select.ResourceTieBreakRowMajor | StarterKit_1/agent.py:64-79 | any other eligible resource tile is either strictly farther or later in row-major order than the pick |
| Select.EmptyTieBreakRowMajor | StarterKit_1/agent.py:87-96 | any other unrestricted empty tile is either strictly farther or later in row-major order than the pick |
| Population.TotalCityTiles | StarterKit_1/agent.py:165-171 | the city-tile count equals the length of the flattened city-tile list |
| Population.CountKind | StarterKit_1/agent.py:155-156 | a per-kind unit count never exceeds the number of units |
| Population.KindsPartitionUnits | StarterKit_1/agent.py:155-156 | worker count plus cart count is the number of units |
| Population.RatioAboveThreshold | StarterKit_1/agent.py:130-131 | units/tiles > 0.8 holds exactly when 5*units > 4*tiles |
| Population.ShouldBuildCityTile | StarterKit_1/agent.py:118-134 | true iff some cargo field is exactly 100 and either the projected tile count is 0 or 5*(units+pending units) > 4*(tiles+pending tiles), where the unit count is `TotalUnits` (agent.py:174-176) |
| Population.ShouldCreateUnit | StarterKit_1/agent.py:137-149 | true iff the projected tile count is nonzero and 5*(units+pending units) <= 4*(tiles+pending tiles), with the unit count from `TotalUnits` (agent.py:174-176) |
| Population.CreateUnitType | StarterKit_1/agent.py:152-162 | a cart iff 5*(carts+1) <= workers, i.e. carts < floor(workers/5); always a worker with fewer than 5 workers |
| Population.BuildAndSpawnExclusive | StarterKit_1/agent.py:127-149 | with a nonzero projected tile count and a full load, exactly one of the build and spawn tests passes (ratio 0.8 spawns) |
| Population.NoCityTilesMeansBuild | StarterKit_1/agent.py:127-128 | with no city tiles a full-loaded worker founds one and no spawn is authorised |
| Population.FirstSpawnIsWorker | StarterKit_1/agent.py:141-162 | one city tile and no units: a spawn is authorised and it is a worker |
| Population.SpawnsArePrefix | StarterKit_1/agent.py:137-149 | when each acting city tile asks the spawn test with the spawns so far added, the n-th asks it with exactly n more pending units unless an earlier tile already failed it, so once one tile does research every later tile does too |
| Tracker.NewTracker | StarterKit_1/tracker.py:5-17 | a tracker created without a destination has no work, where `HasWork` (`unit_has_work`, tracker.py:13-17) is "has a destination" |
| Tracker.SetDestination | StarterKit_1/agent.py:184-185 | setting a destination gives the tracker work and keeps its ids |
| Tracker.ClearOnArrival | StarterKit_1/agent.py:279-284 | a tracker whose destination is the unit's position loses its work; any other is unchanged |
| TrackerTable.DropDead | StarterKit_1/agent.py:264-272 | after removing dead units the tracked ids are the old ids that are still live, with their records unchanged |
| TrackerTable.RegisterAllKeys | StarterKit_1/agent.py:274-277 | the creation loop leaves every live id tracked and adds no other id |
| TrackerTable.RegisterAllSpec | StarterKit_1/agent.py:274-284 | with distinct ids the creation loop gives each unit its fresh-or-cleared record and leaves other ids alone |
| TrackerTable.RefreshSpec | StarterKit_1/agent.py:259-284 | `Refresh` (`update_unit_tracker_dict`): afterwards the tracked ids are exactly the live ids; new ids have no destination; an arrived destination becomes None; every other record is unchanged |
| TrackerTable.RefreshClearsArrivals | StarterKit_1/agent.py:279-284 | after the refresh no tracker points at the tile its unit stands on |
| TrackerTable.RefreshIdempotent | StarterKit_1/agent.py:259-284 | refreshing twice with the same units equals refreshing once |
| TrackerTable.RefreshWork | StarterKit_1/agent.py:275-284 | after the refresh a unit has work (`HasWork`, tracker.py:13-17) iff it was tracked with a destination it has not reached |
| Ledger.Occupied | StarterKit_1/agent.py:287-293 | the occupied ids are exactly the units that cannot act, each mapped to a position of such a unit |
| Ledger.Reserved | StarterKit_1/agent.py:296-309 | the reserved ids are exactly the live units whose tracker has a destination, each mapped to that destination |
| Ledger.Reserve | StarterKit_1/agent.py:188 | a reservation makes its tile restricted and can only release the same unit's previous reservation |
| Ledger.OccupiedExact | StarterKit_1/agent.py:287-293 | with distinct ids each non-acting unit is occupied at its own position |
| Ledger.RestrictedExactly | StarterKit_1/agent.py:287-319 | a position is in `Restricted` (the occupied values plus the reserved values, agent.py:312-319) after the rebuild iff this turn a unit that cannot act stands there or a live unit's tracker points there |
| History.Push | StarterKit_1/agent.py:360-364 | a push never lets the window exceed 4 positions, and the newest position is last |
| History.PushKeepsNewest | StarterKit_1/agent.py:360-364 | the window after a push is the newest min(n+1, 4) positions of the old window followed by the new one |
| History.StuckIffSame | StarterKit_1/agent.py:371-374 | `Stuck`, the one-element-set test on a full window, is the same as four equal positions |
| History.FourEqualPushesStuck | StarterKit_1/agent.py:360-376 | four pushes of the same position make any window stuck |
| History.RecordOne | StarterKit_1/agent.py:360-364 | recording a worker ends its window at its position, keeps windows bounded, and leaves other ids alone |
| History.Record | StarterKit_1/agent.py:358-364 | after recording, every worker id has a window, and all windows hold at most 4 positions |
| History.RecordEndsAtPosition | StarterKit_1/agent.py:358-364 | with distinct ids every worker's window ends with its current position |
| History.RecordSpec | StarterKit_1/agent.py:358-364 | with distinct ids the recording loop pushes each worker's position exactly once onto the window it held before the turn |
| History.RecordWorkerAt | StarterKit_1/agent.py:359-364 | recording a turn in which a worker stands at p pushes p onto that worker's window |
| History.StandingStillFourTurnsStuck | StarterKit_1/agent.py:358-376 | a worker recorded at the same position on four consecutive turns is stuck on the fourth, whatever its window held before |
| Agent.HeadTo | StarterKit_1/agent.py:196-220 | committing to a target gives the unit work with that destination, touches no other tracker and no ledger entry, and emits one move toward the target |
| Agent.TransferToCityTile | StarterKit_1/agent.py:196-206 | the unit is committed to the city tile and no other tracker changes; exactly one move toward it is emitted; the ledger and both counters are unchanged, so the tile is not reserved |
| Agent.MoveToEmptyTile | StarterKit_1/agent.py:209-220 | the unit is committed to the empty tile and no other tracker changes; exactly one move toward it is emitted; the ledger and both counters are unchanged, so the tile is not reserved |
| Agent.CollectResource | StarterKit_1/agent.py:179-193 | tracker destination and reserved entry both become the target, which is then restricted; one move is emitted |
| Agent.TryRandomMove | StarterKit_1/agent.py:223-236 | a random move succeeds iff the neighbour is inside [0,width)x[0,height), and then that neighbour is reserved and the drawn direction is emitted |
| Agent.RandomWalk | StarterKit_1/agent.py:223-238 | either nothing happens because no draw stays on the map, or one move in an in-bounds drawn direction is emitted and its neighbour reserved; trackers and counters are untouched |
| Agent.SeekResource | StarterKit_1/agent.py:389-396 | with an eligible resource tile the unit heads for the closest one and reserves it; otherwise it heads for its city tile without reserving it; with neither it takes a random in-bounds step; any action is this unit's own, and no other unit's tracker or reservation changes |
| Agent.DecideWorker | StarterKit_1/agent.py:368-413 | a worker emits build_city exactly when it is not stuck, has no destination, is full, passes the build test and can build; the pending city-tile counter rises by one exactly then; at most one action, this worker's own; no other unit's tracker or reservation changes |
| Agent.DecideCart | StarterKit_1/agent.py:414-424 | a cart decision emits at most one action, this cart's own, and never changes a counter; a full cart heads for its city tile and leaves the ledger alone; no other unit's tracker or reservation changes |
| Agent.DecideUnit | StarterKit_1/agent.py:367-426 | a unit that cannot act changes nothing; any unit emits at most one action, its own move or city build; the pending city-tile counter rises by one exactly when that action is a city build; no other unit's tracker or reservation changes |
| Agent.DecideUnits | StarterKit_1/agent.py:366-426 | the unit loop only appends actions, at most as many as there are units, each a move or city build of a unit of the loop; it keeps the trackers and reservations of every unit outside the loop and the occupied map; the pending city-tile counter rises by the number of city builds emitted |
| Agent.UnitLoopOneActionPerUnit | StarterKit_1/agent.py:366-426 | with distinct unit ids, no two actions the unit loop emits belong to the same unit |
| Agent.DecideCityTile | StarterKit_1/agent.py:431-443 | an acting city tile emits exactly one of build-worker, build-cart or research at its position; it spawns iff the spawn test passes, and a spawn is a cart iff 5*(carts+1) <= workers; the pending-unit counter rises by one exactly on a spawn; a tile that cannot act changes nothing |
| Agent.DecideCityTiles | StarterKit_1/agent.py:428-443 | the loop appends one action per acting tile: the i-th new action is a build-worker, build-cart or research at the i-th acting tile's position, in city-tile order; the pending-unit counter rises by the number of spawns emitted; which tiles spawn is stated by `CitySpawnsPrefix` |
| Agent.CitySpawnsPrefix | StarterKit_1/agent.py:428-443 | each acting tile sees the spawns decided before it: the i-th acting tile spawns exactly when the spawn test passes with i more pending units, that is, when the projected tile count T is nonzero and 5*(U+i) <= 4*T; the spawns form a prefix, and the pending-unit counter ends raised by their number |
| Agent.Turn | StarterKit_1/agent.py:322-448 | a turn emits first at most as many actions as there are units, each a move or city build of one of the player's units, then exactly one build-worker, build-cart or research per acting city tile, at that tile, in city-tile order; the i-th acting tile spawns exactly when the spawn test passes with the unit phase's city builds as pending tiles and i pending units; with distinct unit ids no unit gets two actions; the next turn's tracked ids are exactly this turn's unit ids |
| Agent.UnitPhase | StarterKit_1/agent.py:322-426 | the first part of a turn emits at most as many actions as there are units, each a move or city build of one of the player's units, none for the same unit twice when ids are distinct, and ends with exactly the live unit ids tracked |
| Agent.CollectedTileSkipped | StarterKit_1/agent.py:179-193 | after a collect and the rest of the unit loop over other units, the collected tile is still restricted, so no later resource or empty selection in the same turn returns it |
| Agent.StuckWorkerOnlyMoves | StarterKit_1/agent.py:370-376 | a worker with four equal recorded positions emits only a move (or nothing), builds nothing and keeps its tracker |
| Agent.WorkerResumesDestination | StarterKit_1/agent.py:378-385 | a free worker with a destination moves toward it without reselecting: trackers and ledger are unchanged |
| Agent.FullWorkerBuilds | StarterKit_1/agent.py:397-402 | a full worker with a passing build test and can_build emits build_city and the pending city-tile counter rises by exactly 1 |
| Agent.FullWorkerDelivers | StarterKit_1/agent.py:397-413 | a full worker whose build test fails heads for its closest city tile without reserving it, or takes a random step when there is none; nothing is founded |
| Agent.WorkerFallsBack | StarterKit_1/agent.py:387-396 | a worker with cargo space and no eligible resource heads for its closest city tile without reserving it, or takes a random step when there is none |
| Agent.FullWorkerRelocates | StarterKit_1/agent.py:403-407 | a full worker that should build but cannot is sent to the closest unrestricted empty tile (the selector's pick) when one exists, and the ledger is unchanged, so the tile is not reserved |
| Agent.WorkerCollects | StarterKit_1/agent.py:389-392 | a worker with cargo space and an eligible resource is committed to the closest eligible tile (the selector's pick), which becomes restricted |
| Agent.CartReselects | StarterKit_1/agent.py:414-418 | a cart with cargo space ignores its tracked destination and is committed afresh to the closest eligible resource |
| Agent.RelocationNotReserved | StarterKit_1/agent.py:209-220 | relocating to an empty tile leaves every later empty-tile selection of the turn unchanged |

## Left out

- Game-state bootstrap and update, log-file setup and logging, and `UnitTracker.__str__`: these are I/O.
- The `lux` classes (`Game`, `Cell`, `Position`, units, city tiles) are not part of this model. The queries the agent makes of them are fields of the datatypes in `Game`, except as the next line says. `distance_to` is Manhattan and `direction_to` is a supplied function.
- Scans.HasResource: `cell.has_resource()` (agent.py:42) and the truth of `cell.resource` (agent.py:56) are both modelled as `resource.Some?`. The `lux` code that could make them differ, such as a resource with amount 0, is not part of this model.
- Action token text: actions are the abstract `Agent.Action` datatype.
- Agent.RandomWalk: `random.choice` with unbounded retry becomes a finite list of supplied draws. If no draw stays on the map, nothing is emitted, where the source would keep drawing. Termination of the source's retry cannot be shown from the code.
- Agent.Turn: an acting cart uses its own closest city tile, both when it is full (agent.py:424) and when it has space but no eligible resource (agent.py:419-420), and the turn requires such a tile to exist for a full cart. The source reads whatever `closest_city_tile` the last free worker computed at agent.py:387. If no worker has reached that line yet this turn, it raises UnboundLocalError; otherwise it heads to that worker's tile, and a full cart fails when the value is None.
- Agent.Turn: the random draws are per unit rather than one shared random stream.
- Population.ShouldBuildCityTile: the 0.8 test uses exact arithmetic, not floating-point division. The two agree for counts below about 10^15.
- Population.ShouldCreateUnit: the same 0.8 test, with the same exact arithmetic and the same range of agreement.
- Ledger.Restricted: the restricted list is kept as the set of its elements, because callers only test membership.
- The tracker-table and ledger lemmas assume distinct unit ids, which the game guarantees.
- Unused leftovers: the `opponent` binding, the turn-360 no-op and `MAXIMUM_TURNS`. The placeholder `"c_1"` is stored in `city_id`, which is never read.

=== FILE: agent.dfy ===
/** The turn controller `agent` (StarterKit_1/agent.py:322-448) and the
    action helpers it calls (agent.py:179-238). One turn refreshes the
    trackers, rebuilds the ledger, records worker positions, lets every
    unit act in order, and then lets every city tile spawn or research.
    The state a turn threads through its decisions is an explicit record. */
module Agent {
  import opened Wrappers
  import opened Geometry
  import opened Game
  import opened Scans
  import opened Select
  import opened Population
  import opened Tracker
  import opened TrackerTable
  import opened Ledger
  import opened History

  /** The action tokens the agent emits, abstracted from their text form. */
  datatype Action =
    | Move(unit: UnitId, dir: Direction)
    | BuildCity(unit: UnitId)
    | BuildWorker(tile: Pos)
    | BuildCart(tile: Pos)
    | ResearchAt(tile: Pos)

  /** What the game supplies for one turn. `directionTo` stands for
      `Position.direction_to`; `draws` lists, per unit, the directions
      `random.choice` would return, in order. */
  datatype World = World(grid: GameMap, player: Player,
                         directionTo: (Pos, Pos) -> Direction,
                         draws: map<UnitId, seq<Direction>>)

  /** The random draws come from `["n", "s", "e", "w"]`. */
  predicate DrawsCardinal(w: World) {
    forall id, d :: id in w.draws && d in w.draws[id] ==> Cardinal(d)
  }

  function DrawsFor(w: World, id: UnitId): (ds: seq<Direction>)
    requires DrawsCardinal(w)
    ensures forall d :: d in ds ==> Cardinal(d)
  {
    if id in w.draws then w.draws[id] else []
  }

  /** The state threaded through one turn: the tracker table, the ledger,
      the counters `build_citytiles_initiated` and `build_workers_initiated`,
      and the actions emitted so far. */
  datatype TurnState = TurnState(trackers: Table, ledger: Ledger,
                                 pendingTiles: nat, pendingUnits: nat,
                                 actions: seq<Action>)

  /** `b` is `a` or `a` with one more action at the end. */
  predicate AtMostOneMore(a: seq<Action>, b: seq<Action>) {
    b == a || (|b| == |a| + 1 && b[..|a|] == a)
  }

  /** `a` is a move or a city build by a unit whose id is in `ids`. */
  predicate UnitAction(a: Action, ids: set<UnitId>) {
    (a.Move? || a.BuildCity?) && a.unit in ids
  }

  /** `a` is a spawn or a research order of the city tile at `p`. */
  predicate TileAction(a: Action, p: Pos) {
    (a.BuildWorker? || a.BuildCart? || a.ResearchAt?) && a.tile == p
  }

  function Emit(st: TurnState, a: Action): (r: TurnState)
    ensures r.actions == st.actions + [a]
    ensures r.trackers == st.trackers && r.ledger == st.ledger
    ensures r.pendingTiles == st.pendingTiles && r.pendingUnits == st.pendingUnits
  {
    st.(actions := st.actions + [a])
  }

  /** The part `transfer_resource_to_citytile` and `move_unit_to_empty_tile`
      share (agent.py:196-220): commit the unit's tracker to `target` and
      move towards it, without reserving `target` in the ledger. */
  function HeadTo(st: TurnState, w: World, u: Unit, target: Pos): (r: TurnState)
    requires u.id in st.trackers
    ensures r.trackers.Keys == st.trackers.Keys
    ensures r.trackers[u.id].HasWork() && r.trackers[u.id].destination == Some(target)
    ensures forall id :: id in st.trackers && id != u.id ==> r.trackers[id] == st.trackers[id]
    ensures r.ledger == st.ledger
    ensures r.actions == st.actions + [Move(u.id, w.directionTo(u.pos, target))]
    ensures r.pendingTiles == st.pendingTiles && r.pendingUnits == st.pendingUnits
  {
    var st1 := st.(trackers := st.trackers[u.id := SetDestination(st.trackers[u.id], target)]);
    Emit(st1, Move(u.id, w.directionTo(u.pos, target)))
  }

  /** `transfer_resource_to_citytile`. */
  function TransferToCityTile(st: TurnState, w: World, u: Unit, home: CityTile): (r: TurnState)
    requires u.id in st.trackers
    ensures KeepsOtherTrackers(st.trackers, r.trackers, {u.id})
    ensures r.trackers[u.id].destination == Some(home.pos)
    ensures r.actions == st.actions + [Move(u.id, w.directionTo(u.pos, home.pos))]
    ensures r.ledger == st.ledger
    ensures r.pendingTiles == st.pendingTiles && r.pendingUnits == st.pendingUnits
  {
    HeadTo(st, w, u, home.pos)
  }

  /** `move_unit_to_empty_tile`: the same steps as
      `transfer_resource_to_citytile`, so the empty tile is not reserved. */
  function MoveToEmptyTile(st: TurnState, w: World, u: Unit, empty: Tile): (r: TurnState)
    requires u.id in st.trackers
    ensures KeepsOtherTrackers(st.trackers, r.trackers, {u.id})
    ensures r.trackers[u.id].destination == Some(empty.pos)
    ensures r.actions == st.actions + [Move(u.id, w.directionTo(u.pos, empty.pos))]
    ensures r.ledger == st.ledger
    ensures r.pendingTiles == st.pendingTiles && r.pendingUnits == st.pendingUnits
  {
    HeadTo(st, w, u, empty.pos)
  }

  /** `collect_resource` (agent.py:179-193): commit to the resource tile,
      reserve it so later selections this turn skip it, and move. */
  function CollectResource(st: TurnState, w: World, u: Unit, resource: Tile): (r: TurnState)
    requires u.id in st.trackers
    ensures r.trackers.Keys == st.trackers.Keys
    ensures r.trackers[u.id].destination == Some(resource.pos)
    ensures forall id :: id in st.trackers && id != u.id ==> r.trackers[id] == st.trackers[id]
    ensures resource.pos in Restricted(r.ledger) && u.id in r.ledger.reserved && r.ledger.reserved[u.id] == resource.pos
    ensures KeepsOthers(st.ledger, r.ledger, {u.id})
    ensures r.actions == st.actions + [Move(u.id, w.directionTo(u.pos, resource.pos))]
    ensures r.pendingTiles == st.pendingTiles && r.pendingUnits == st.pendingUnits
  {
    var st1 := HeadTo(st, w, u, resource.pos);
    st1.(ledger := Reserve(st1.ledger, u.id, resource.pos))
  }

  /** One attempt of `move_unit_in_random_direction` with the drawn
      direction `d`: it succeeds exactly when the neighbour in direction `d`
      is on the map, and then reserves that neighbour and moves there. */
  function TryRandomMove(st: TurnState, w: World, u: Unit, d: Direction): (r: Option<TurnState>)
    requires Cardinal(d)
    ensures r.Some? <==> InBounds(w.grid, Step(u.pos, d))
    ensures r.Some? ==> u.id in r.value.ledger.reserved && r.value.ledger.reserved[u.id] == Step(u.pos, d)
    ensures r.Some? ==> KeepsOthers(st.ledger, r.value.ledger, {u.id})
    ensures r.Some? ==> r.value.actions == st.actions + [Move(u.id, d)]
    ensures r.Some? ==> r.value.trackers == st.trackers
    ensures r.Some? ==> r.value.pendingTiles == st.pendingTiles && r.value.pendingUnits == st.pendingUnits
  {
    var nx := u.pos.x + DeltaX(d);
    var ny := u.pos.y + DeltaY(d);
    if 0 <= nx < w.grid.width && 0 <= ny < w.grid.height then
      var st1 := st.(ledger := Reserve(st.ledger, u.id, Pos(nx, ny)));
      Some(Emit(st1, Move(u.id, d)))
    else None
  }

  /** `move_unit_in_random_direction` with its retries: the draws are tried
      in order and the first one that stays on the map is taken. When no
      draw stays on the map nothing is emitted. */
  function RandomWalk(st: TurnState, w: World, u: Unit, draws: seq<Direction>): (r: TurnState)
    requires forall d :: d in draws ==> Cardinal(d)
    ensures r.trackers == st.trackers && KeepsOthers(st.ledger, r.ledger, {u.id})
    ensures r.pendingTiles == st.pendingTiles && r.pendingUnits == st.pendingUnits
    ensures r.actions == st.actions <==> forall d :: d in draws ==> !InBounds(w.grid, Step(u.pos, d))
    ensures r.actions == st.actions ==> r == st
    ensures r.actions != st.actions ==>
              exists d :: d in draws && InBounds(w.grid, Step(u.pos, d)) &&
                r.actions == st.actions + [Move(u.id, d)] &&
                u.id in r.ledger.reserved && r.ledger.reserved[u.id] == Step(u.pos, d)
    decreases |draws|
  {
    if |draws| == 0 then st
    else
      var attempt := TryRandomMove(st, w, u, draws[0]);
      if attempt.Some? then attempt.value
      else
        assert forall d :: d in draws <==> d == draws[0] || d in draws[1..];
        RandomWalk(st, w, u, draws[1..])
  }

  /** `r` commits unit `u` to `p` and emits exactly the one move toward it. */
  predicate HeadsFor(st: TurnState, r: TurnState, w: World, u: Unit, p: Pos) {
    && u.id in r.trackers && r.trackers[u.id].destination == Some(p)
    && r.actions == st.actions + [Move(u.id, w.directionTo(u.pos, p))]
  }

  /** `r` is a random step of `u`: the trackers are kept and at most one
      move is emitted, in a cardinal direction that stays on the map. */
  predicate RandomStep(st: TurnState, r: TurnState, w: World, u: Unit) {
    && r.trackers == st.trackers
    && (r.actions == st.actions ||
        exists d :: Cardinal(d) && InBounds(w.grid, Step(u.pos, d)) && r.actions == st.actions + [Move(u.id, d)])
  }

  /** No tile of `tiles` is one the resource selector may return. */
  predicate NoEligibleResource(tiles: seq<Tile>, research: Research, restricted: set<Pos>) {
    forall t :: t in tiles ==> !ResourceEligible(t, research, restricted)
  }

  /** Resource seeking, shared by a worker and a cart with cargo space
      (agent.py:389-396, 415-422): the closest eligible resource tile, which
      is reserved; else the closest city tile, unreserved; else a random
      step. */
  function SeekResource(st: TurnState, w: World, resourceTiles: seq<Tile>, u: Unit, home: Option<CityTile>): (r: TurnState)
    requires u.id in st.trackers
    requires forall t :: t in resourceTiles ==> HasResource(t.cell)
    requires DrawsCardinal(w)
    ensures KeepsOtherTrackers(st.trackers, r.trackers, {u.id})
    ensures r.pendingTiles == st.pendingTiles && r.pendingUnits == st.pendingUnits
    ensures AtMostOneMore(st.actions, r.actions)
    ensures r.actions != st.actions ==> UnitAction(r.actions[|st.actions|], {u.id})
    ensures KeepsOthers(st.ledger, r.ledger, {u.id})
    ensures var restricted := Restricted(st.ledger);
            !NoEligibleResource(resourceTiles, w.player.research, restricted) ==>
              var c := ClosestResourceTile(resourceTiles, u.pos, w.player.research, restricted);
              && c.Some?
              && HeadsFor(st, r, w, u, c.value.pos)
              && u.id in r.ledger.reserved && r.ledger.reserved[u.id] == c.value.pos
    ensures NoEligibleResource(resourceTiles, w.player.research, Restricted(st.ledger)) && home.Some? ==>
              HeadsFor(st, r, w, u, home.value.pos) && r.ledger == st.ledger
    ensures NoEligibleResource(resourceTiles, w.player.research, Restricted(st.ledger)) && home.None? ==>
              RandomStep(st, r, w, u)
  {
    var target := ClosestResourceTile(resourceTiles, u.pos, w.player.research, Restricted(st.ledger));
    if target.Some? then CollectResource(st, w, u, target.value)
    else if home.Some? then TransferToCityTile(st, w, u, home.value)
    else RandomWalk(st, w, u, DrawsFor(w, u.id))
  }

  /** What the worker branch requires of a unit: the refresh has given it a
      tracker and the recording loop a window. */
  predicate WorkerReady(st: TurnState, windows: Windows, u: Unit) {
    u.kind == Worker && u.canAct && u.id in st.trackers && u.id in windows
  }

  /** The one action appended is `build_city` for `u`. */
  predicate Founds(st: TurnState, r: TurnState, u: Unit) {
    r.actions == st.actions + [BuildCity(u.id)]
  }

  /** Everything the worker branch checks before founding a city tile: not
      stuck, no tracked destination, a full cargo hold, a passing build
      test, and the game allows building where the worker stands. */
  predicate MayFound(st: TurnState, w: World, windows: Windows, u: Unit)
    requires WorkerReady(st, windows, u)
  {
    && !Stuck(windows[u.id])
    && !st.trackers[u.id].HasWork()
    && u.spaceLeft == 0
    && ShouldBuildCityTile(w.player, st.pendingTiles, st.pendingUnits, u.cargo)
    && u.canBuild
  }

  /** The worker branch of `agent` (agent.py:368-413). A worker founds a
      city tile exactly when every build condition holds, and the pending
      city-tile counter rises by one exactly then. */
  function DecideWorker(st: TurnState, w: World, resourceTiles: seq<Tile>, windows: Windows, u: Unit): (r: TurnState)
    requires WorkerReady(st, windows, u)
    requires WellFormed(w.grid) && DrawsCardinal(w)
    requires forall t :: t in resourceTiles ==> HasResource(t.cell)
    ensures KeepsOtherTrackers(st.trackers, r.trackers, {u.id})
    ensures r.pendingUnits == st.pendingUnits
    ensures AtMostOneMore(st.actions, r.actions)
    ensures r.actions != st.actions ==> UnitAction(r.actions[|st.actions|], {u.id})
    ensures KeepsOthers(st.ledger, r.ledger, {u.id})
    ensures Founds(st, r, u) <==> MayFound(st, w, windows, u)
    ensures r.pendingTiles == st.pendingTiles + (if Founds(st, r, u) then 1 else 0)
  {
    if Stuck(windows[u.id]) then
      RandomWalk(st, w, u, DrawsFor(w, u.id))
    else if st.trackers[u.id].HasWork() then
      Emit(st, Move(u.id, w.directionTo(u.pos, st.trackers[u.id].destination.value)))
    else
      var home := ClosestCityTile(w.player.cities, u.pos);
      if u.spaceLeft > 0 then
        SeekResource(st, w, resourceTiles, u, home)
      else if ShouldBuildCityTile(w.player, st.pendingTiles, st.pendingUnits, u.cargo) then
        if u.canBuild then
          Emit(st, BuildCity(u.id)).(pendingTiles := st.pendingTiles + 1)
        else
          var empty := ClosestEmptyTile(EmptyTiles(w.grid), u.pos, Restricted(st.ledger));
          if empty.Some? then MoveToEmptyTile(st, w, u, empty.value)
          else RandomWalk(st, w, u, DrawsFor(w, u.id))
      else if home.Some? then
        TransferToCityTile(st, w, u, home.value)
      else
        RandomWalk(st, w, u, DrawsFor(w, u.id))
  }

  /** The cart branch of `agent` (agent.py:414-424). Carts get neither the
      stuck test nor the resume test. `home` is the cart's closest city
      tile, which a full cart needs. */
  function DecideCart(st: TurnState, w: World, resourceTiles: seq<Tile>, u: Unit, home: Option<CityTile>): (r: TurnState)
    requires u.kind == Cart && u.canAct && u.id in st.trackers
    requires u.spaceLeft > 0 || home.Some?
    requires DrawsCardinal(w)
    requires forall t :: t in resourceTiles ==> HasResource(t.cell)
    ensures KeepsOtherTrackers(st.trackers, r.trackers, {u.id})
    ensures r.pendingTiles == st.pendingTiles && r.pendingUnits == st.pendingUnits
    ensures AtMostOneMore(st.actions, r.actions)
    ensures r.actions != st.actions ==> UnitAction(r.actions[|st.actions|], {u.id})
    ensures u.spaceLeft == 0 ==> HeadsFor(st, r, w, u, home.value.pos) && r.ledger == st.ledger
    ensures KeepsOthers(st.ledger, r.ledger, {u.id})
  {
    if u.spaceLeft > 0 then SeekResource(st, w, resourceTiles, u, home)
    else TransferToCityTile(st, w, u, home.value)
  }

  /** A full cart always has a city tile to return to. */
  predicate CartsHaveHome(p: Player) {
    |AllCityTiles(p.cities)| > 0 ||
    forall u :: u in p.units && u.kind == Cart && u.canAct ==> u.spaceLeft > 0
  }

  /** One iteration of the unit loop (agent.py:367-426). */
  function DecideUnit(st: TurnState, w: World, resourceTiles: seq<Tile>, windows: Windows, u: Unit): (r: TurnState)
    requires u.id in st.trackers && (u.kind == Worker ==> u.id in windows)
    requires WellFormed(w.grid) && DrawsCardinal(w)
    requires u.kind == Cart && u.canAct && u.spaceLeft == 0 ==> |AllCityTiles(w.player.cities)| > 0
    requires forall t :: t in resourceTiles ==> HasResource(t.cell)
    ensures KeepsOtherTrackers(st.trackers, r.trackers, {u.id})
    ensures r.pendingUnits == st.pendingUnits
    ensures AtMostOneMore(st.actions, r.actions)
    ensures r.actions != st.actions ==> UnitAction(r.actions[|st.actions|], {u.id})
    ensures r.pendingTiles == st.pendingTiles +
              (if r.actions != st.actions && r.actions[|st.actions|].BuildCity? then 1 else 0)
    ensures !u.canAct ==> r == st
    ensures KeepsOthers(st.ledger, r.ledger, {u.id})
  {
    if u.kind == Worker && u.canAct then
      DecideWorker(st, w, resourceTiles, windows, u)
    else if u.kind == Cart && u.canAct then
      DecideCart(st, w, resourceTiles, u, ClosestCityTile(w.player.cities, u.pos))
    else st
  }

  /** The unit loop over `units`, in order. */
  function DecideUnits(st: TurnState, w: World, resourceTiles: seq<Tile>, windows: Windows, units: seq<Unit>): (r: TurnState)
    requires UnitIds(units) <= st.trackers.Keys
    requires forall u :: u in units && u.kind == Worker ==> u.id in windows
    requires WellFormed(w.grid) && DrawsCardinal(w)
    requires forall u :: u in units && u.kind == Cart && u.canAct && u.spaceLeft == 0 ==> |AllCityTiles(w.player.cities)| > 0
    requires forall t :: t in resourceTiles ==> HasResource(t.cell)
    ensures OnlyUnitsActed(st, r, UnitIds(units))
    ensures |r.actions| <= |st.actions| + |units|
    decreases |units|
  {
    if |units| == 0 then st
    else
      var init := units[..|units| - 1];
      var u := units[|units| - 1];
      assert units == init + [u];
      assert forall v :: v in init ==> v in units;
      var prev := DecideUnits(st, w, resourceTiles, windows, init);
      var r := DecideUnit(prev, w, resourceTiles, windows, u);
      UnitLoopStep(st, prev, r, init, u, units);
      r
  }

  /** The number of `build_city` actions in `s`. */
  function CountBuilds(s: seq<Action>): nat {
    if |s| == 0 then 0
    else CountBuilds(s[..|s| - 1]) + (if s[|s| - 1].BuildCity? then 1 else 0)
  }

  /** What deciding for the units in `ids` may do to a turn state: other
      units keep their trackers and reservations, the occupied map and the
      pending-unit counter are kept, actions are only appended and each new
      one is a move or city build of a unit in `ids`, and the pending
      city-tile counter rises by the number of city builds appended. */
  predicate OnlyUnitsActed(a: TurnState, b: TurnState, ids: set<UnitId>) {
    && KeepsOtherTrackers(a.trackers, b.trackers, ids)
    && KeepsOthers(a.ledger, b.ledger, ids)
    && b.pendingUnits == a.pendingUnits
    && |a.actions| <= |b.actions| && b.actions[..|a.actions|] == a.actions
    && (forall k :: |a.actions| <= k < |b.actions| ==> UnitAction(b.actions[k], ids))
    && b.pendingTiles == a.pendingTiles + CountBuilds(b.actions) - CountBuilds(a.actions)
  }

  /** One unit's decision, as `DecideUnit` describes it, is an instance of
      `OnlyUnitsActed` for that unit alone. */
  lemma OneUnitActed(a: TurnState, b: TurnState, u: Unit)
    requires KeepsOtherTrackers(a.trackers, b.trackers, {u.id})
    requires KeepsOthers(a.ledger, b.ledger, {u.id})
    requires b.pendingUnits == a.pendingUnits
    requires AtMostOneMore(a.actions, b.actions)
    requires b.actions != a.actions ==> UnitAction(b.actions[|a.actions|], {u.id})
    requires b.pendingTiles == a.pendingTiles +
               (if b.actions != a.actions && b.actions[|a.actions|].BuildCity? then 1 else 0)
    ensures OnlyUnitsActed(a, b, {u.id})
  {
    if b.actions != a.actions {
      assert b.actions[..|b.actions| - 1] == a.actions;
    }
  }

  /** One pass of the unit loop extends what the earlier passes did. */
  lemma UnitLoopStep(st: TurnState, prev: TurnState, r: TurnState, init: seq<Unit>, u: Unit, units: seq<Unit>)
    requires units == init + [u]
    requires OnlyUnitsActed(st, prev, UnitIds(init)) && |prev.actions| <= |st.actions| + |init|
    requires KeepsOtherTrackers(prev.trackers, r.trackers, {u.id})
    requires KeepsOthers(prev.ledger, r.ledger, {u.id})
    requires r.pendingUnits == prev.pendingUnits
    requires AtMostOneMore(prev.actions, r.actions)
    requires r.actions != prev.actions ==> UnitAction(r.actions[|prev.actions|], {u.id})
    requires r.pendingTiles == prev.pendingTiles +
               (if r.actions != prev.actions && r.actions[|prev.actions|].BuildCity? then 1 else 0)
    ensures OnlyUnitsActed(st, r, UnitIds(units)) && |r.actions| <= |st.actions| + |units|
  {
    assert UnitIds(init) + {u.id} == UnitIds(units) by {
      assert forall v :: v in units <==> v in init || v == u;
    }
    OneUnitActed(prev, r, u);
    OnlyUnitsActedCompose(st, prev, r, UnitIds(init), {u.id});
  }

  /** Two rounds of decisions compose: the units of both rounds acted. */
  lemma OnlyUnitsActedCompose(a: TurnState, b: TurnState, c: TurnState, ids1: set<UnitId>, ids2: set<UnitId>)
    requires OnlyUnitsActed(a, b, ids1) && OnlyUnitsActed(b, c, ids2)
    ensures OnlyUnitsActed(a, c, ids1 + ids2)
  {
    assert c.actions[..|a.actions|] == c.actions[..|b.actions|][..|a.actions|];
    forall k | |a.actions| <= k < |c.actions| ensures UnitAction(c.actions[k], ids1 + ids2) {
      if k < |b.actions| {
        assert c.actions[k] == c.actions[..|b.actions|][k];
      }
    }
  }

  predicate IsSpawn(a: Action) {
    a.BuildWorker? || a.BuildCart?
  }

  function CountSpawns(s: seq<Action>): nat {
    if |s| == 0 then 0
    else CountSpawns(s[..|s| - 1]) + (if IsSpawn(s[|s| - 1]) then 1 else 0)
  }

  /** The city tiles that can act, in loop order. */
  function ActingTiles(tiles: seq<CityTile>): (r: seq<CityTile>)
    ensures |r| <= |tiles|
    ensures forall t :: t in r <==> t in tiles && t.canAct
    decreases |tiles|
  {
    if |tiles| == 0 then []
    else
      var last := tiles[|tiles| - 1];
      assert forall t :: t in tiles <==> t in tiles[..|tiles| - 1] || t == last;
      ActingTiles(tiles[..|tiles| - 1]) + (if last.canAct then [last] else [])
  }

  /** One city tile of the city-tile loop (agent.py:431-443). */
  function DecideCityTile(st: TurnState, w: World, t: CityTile): (r: TurnState)
    ensures r.trackers == st.trackers && r.ledger == st.ledger && r.pendingTiles == st.pendingTiles
    ensures !t.canAct ==> r == st
    ensures t.canAct ==> |r.actions| == |st.actions| + 1 && r.actions[..|st.actions|] == st.actions
    ensures t.canAct ==> TileAction(r.actions[|st.actions|], t.pos)
    ensures t.canAct ==> (IsSpawn(r.actions[|st.actions|]) <==>
              ShouldCreateUnit(w.player, st.pendingTiles, st.pendingUnits))
    ensures t.canAct && IsSpawn(r.actions[|st.actions|]) ==>
              (r.actions[|st.actions|].BuildCart? <==>
               5 * (CountKind(w.player.units, Cart) + 1) <= CountKind(w.player.units, Worker))
    ensures r.pendingUnits == st.pendingUnits + (if t.canAct && IsSpawn(r.actions[|r.actions| - 1]) then 1 else 0)
  {
    if !t.canAct then st
    else if ShouldCreateUnit(w.player, st.pendingTiles, st.pendingUnits) then
      var token := if CreateUnitType(w.player.units) == NewWorker then BuildWorker(t.pos) else BuildCart(t.pos);
      Emit(st, token).(pendingUnits := st.pendingUnits + 1)
    else
      Emit(st, ResearchAt(t.pos))
  }

  /** The city-tile loop over every tile of every city, in order: the
      i-th new action belongs to the i-th acting tile, and each spawn raises
      the pending-unit counter by one. */
  function DecideCityTiles(st: TurnState, w: World, tiles: seq<CityTile>): (r: TurnState)
    ensures r.trackers == st.trackers && r.ledger == st.ledger && r.pendingTiles == st.pendingTiles
    ensures |r.actions| == |st.actions| + |ActingTiles(tiles)|
    ensures r.actions[..|st.actions|] == st.actions
    ensures forall i :: 0 <= i < |ActingTiles(tiles)| ==>
              TileAction(r.actions[|st.actions| + i], ActingTiles(tiles)[i].pos)
    ensures r.pendingUnits == st.pendingUnits + CountSpawns(r.actions) - CountSpawns(st.actions)
    decreases |tiles|
  {
    if |tiles| == 0 then st
    else
      var prev := DecideCityTiles(st, w, tiles[..|tiles| - 1]);
      var r := DecideCityTile(prev, w, tiles[|tiles| - 1]);
      assert r.actions[..|prev.actions|] == prev.actions;
      assert r.actions[..|st.actions|] == prev.actions[..|st.actions|];
      assert forall k :: 0 <= k < |prev.actions| ==> r.actions[k] == prev.actions[k];
      r
  }

  /** The `i`-th of `actions` is a spawn exactly when `SpawnSlot` holds
      for `i`. */
  predicate SpawnPattern(actions: seq<Action>, p: Player, pendingTiles: nat, pendingUnits: nat) {
    forall i :: 0 <= i < |actions| ==> (IsSpawn(actions[i]) <==> SpawnSlot(p, pendingTiles, pendingUnits, i))
  }

  /** `r` is the state after the first `n` acting tiles of a city-tile loop
      started from `st`: the `i`-th appended action is a spawn exactly when
      `SpawnSlot` holds for `i`, and the pending-unit counter is raised by
      `Spawned`. */
  predicate SpawnsSoFar(st: TurnState, w: World, n: nat, r: TurnState) {
    && |r.actions| == |st.actions| + n
    && r.pendingTiles == st.pendingTiles
    && r.pendingUnits == st.pendingUnits + Spawned(w.player, st.pendingTiles, st.pendingUnits, n)
    && SpawnPattern(r.actions[|st.actions|..], w.player, st.pendingTiles, st.pendingUnits)
  }

  /** Which acting tiles of the city-tile loop spawn: each later tile sees
      the spawns decided before it, so the `i`-th acting tile spawns exactly
      when the spawn test passes with `i` more pending units. */
  lemma {:induction false} CitySpawnsPrefix(st: TurnState, w: World, tiles: seq<CityTile>)
    ensures SpawnsSoFar(st, w, |ActingTiles(tiles)|, DecideCityTiles(st, w, tiles))
    decreases |tiles|
  {
    if |tiles| > 0 {
      var init := tiles[..|tiles| - 1];
      var last := tiles[|tiles| - 1];
      CitySpawnsPrefix(st, w, init);
      var prev := DecideCityTiles(st, w, init);
      assert DecideCityTiles(st, w, tiles) == DecideCityTile(prev, w, last);
      assert |ActingTiles(tiles)| == |ActingTiles(init)| + (if last.canAct then 1 else 0);
      CitySpawnStep(st, prev, w, last, |ActingTiles(init)|);
    }
  }

  /** One tile of the city-tile loop extends the spawn pattern. */
  lemma CitySpawnStep(st: TurnState, prev: TurnState, w: World, t: CityTile, n: nat)
    requires SpawnsSoFar(st, w, n, prev)
    ensures SpawnsSoFar(st, w, n + (if t.canAct then 1 else 0), DecideCityTile(prev, w, t))
  {
    var r := DecideCityTile(prev, w, t);
    SpawnsArePrefix(w.player, st.pendingTiles, st.pendingUnits, n);
    if t.canAct {
      assert r.actions[|st.actions|..] == prev.actions[|st.actions|..] + [r.actions[|prev.actions|]];
    }
  }

  /** What the agent keeps from one turn to the next. */
  datatype Memory = Memory(trackers: Table, windows: Windows)

  /** The turn inputs the agent relies on. */
  predicate TurnReady(mem: Memory, w: World) {
    WellFormed(w.grid) && DrawsCardinal(w) && Bounded(mem.windows) && CartsHaveHome(w.player)
  }

  /** One call of `agent`: the emitted actions and the memory for the next turn. */
  function Turn(mem: Memory, w: World): (r: (seq<Action>, Memory))
    requires TurnReady(mem, w)
    ensures |r.0| <= |w.player.units| + |AllCityTiles(w.player.cities)|
    ensures exists n :: TurnActions(r.0, w.player, n)
    ensures DistinctIds(w.player.units) ==> DistinctActors(r.0, 0)
    ensures r.1.trackers.Keys == UnitIds(w.player.units)
    ensures Bounded(r.1.windows)
  {
    var (st1, windows) := UnitPhase(mem, w);
    var tiles := AllCityTiles(w.player.cities);
    var st2 := DecideCityTiles(st1, w, tiles);
    CityPhaseFollows(st1, w);
    CityPhaseKeepsActors(st1, w, tiles);
    (st2.actions, Memory(st2.trackers, windows))
  }

  /** The first part of a turn: refresh the trackers, rebuild the ledger,
      record the worker positions and run the unit loop. */
  function UnitPhase(mem: Memory, w: World): (r: (TurnState, Windows))
    requires TurnReady(mem, w)
    ensures |r.0.actions| <= |w.player.units|
    ensures forall k :: 0 <= k < |r.0.actions| ==> UnitAction(r.0.actions[k], UnitIds(w.player.units))
    ensures r.0.pendingTiles == CountBuilds(r.0.actions) && r.0.pendingUnits == 0
    ensures DistinctIds(w.player.units) ==> DistinctActors(r.0.actions, 0)
    ensures r.0.trackers.Keys == UnitIds(w.player.units)
    ensures Bounded(r.1)
  {
    var units := w.player.units;
    var resourceTiles := ResourceTiles(w.grid);
    var trackers := Refresh(mem.trackers, units);
    RegisterAllKeys(DropDead(mem.trackers, units), units);
    var windows := Record(mem.windows, units);
    var st0 := TurnState(trackers, Rebuild(units, trackers), 0, 0, []);
    var st1 := DecideUnits(st0, w, resourceTiles, windows, units);
    UnitLoopOneActionPerUnit(st0, w, resourceTiles, windows, units);
    (st1, windows)
  }


  /** A turn's actions are `n <= |p.units|` actions of the player's units,
      followed by one action for each acting city tile, in city-tile order.
      The `i`-th acting tile spawns exactly when the spawn test passes with
      the city builds of the unit actions pending and `i` pending units. */
  predicate TurnActions(actions: seq<Action>, p: Player, n: int) {
    var acting := ActingTiles(AllCityTiles(p.cities));
    && 0 <= n <= |p.units| && n + |acting| == |actions|
    && (forall k :: 0 <= k < n ==> UnitAction(actions[k], UnitIds(p.units)))
    && (forall i :: 0 <= i < |acting| ==> TileAction(actions[n + i], acting[i].pos))
    && SpawnPattern(actions[n..], p, CountBuilds(actions[..n]), 0)
  }

  /** The city-tile loop, run after a unit loop that emitted at most one
      action per unit, completes the turn's action list. */
  lemma CityPhaseFollows(st: TurnState, w: World)
    requires |st.actions| <= |w.player.units|
    requires forall k :: 0 <= k < |st.actions| ==> UnitAction(st.actions[k], UnitIds(w.player.units))
    requires st.pendingTiles == CountBuilds(st.actions) && st.pendingUnits == 0
    ensures TurnActions(DecideCityTiles(st, w, AllCityTiles(w.player.cities)).actions, w.player, |st.actions|)
  {
    var all := DecideCityTiles(st, w, AllCityTiles(w.player.cities)).actions;
    assert forall k :: 0 <= k < |st.actions| ==> all[k] == all[..|st.actions|][k];
    CitySpawnsPrefix(st, w, AllCityTiles(w.player.cities));
    assert all[..|st.actions|] == st.actions;
  }

  /** The city-tile loop adds no unit action, so actors that were distinct
      before it stay distinct. */
  lemma CityPhaseKeepsActors(st: TurnState, w: World, tiles: seq<CityTile>)
    ensures DistinctActors(st.actions, 0) ==> DistinctActors(DecideCityTiles(st, w, tiles).actions, 0)
  {
    var all := DecideCityTiles(st, w, tiles).actions;
    var n := |st.actions|;
    var acting := ActingTiles(tiles);
    forall k | n <= k < |all| ensures !(all[k].Move? || all[k].BuildCity?) {
      assert TileAction(all[n + (k - n)], acting[k - n].pos);
    }
    if DistinctActors(st.actions, 0) {
      DistinctActorsAppend(all, n);
    }
  }

  /** Appending actions that are not unit actions keeps the actors distinct. */
  lemma DistinctActorsAppend(s: seq<Action>, n: nat)
    requires n <= |s| && DistinctActors(s[..n], 0)
    requires forall k :: n <= k < |s| ==> !(s[k].Move? || s[k].BuildCity?)
    ensures DistinctActors(s, 0)
  {
    forall i, j | 0 <= i < j < |s| && (s[i].Move? || s[i].BuildCity?) && (s[j].Move? || s[j].BuildCity?)
      ensures s[i].unit != s[j].unit
    {
      assert s[i] == s[..n][i] && s[j] == s[..n][j];
    }
  }

  /** A tile reserved by `collect_resource` stays reserved while the rest
      of the unit loop runs over `later` units (none of them the collector),
      so no resource or empty selection made afterwards in the same turn,
      by any unit from any position, returns it. */
  lemma CollectedTileSkipped(st: TurnState, w: World, resourceTiles: seq<Tile>, windows: Windows,
                             u: Unit, resource: Tile, later: seq<Unit>,
                             tiles: seq<Tile>, empties: seq<Tile>, from: Pos)
    requires u.id in st.trackers
    requires UnitIds(later) <= st.trackers.Keys
    requires forall v :: v in later ==> v.id != u.id
    requires forall v :: v in later && v.kind == Worker ==> v.id in windows
    requires WellFormed(w.grid) && DrawsCardinal(w)
    requires forall v :: v in later && v.kind == Cart && v.canAct && v.spaceLeft == 0 ==> |AllCityTiles(w.player.cities)| > 0
    requires forall t :: t in resourceTiles ==> HasResource(t.cell)
    requires forall t :: t in tiles ==> HasResource(t.cell)
    ensures var l := DecideUnits(CollectResource(st, w, u, resource), w, resourceTiles, windows, later).ledger;
            var c := ClosestResourceTile(tiles, from, w.player.research, Restricted(l));
            var e := ClosestEmptyTile(empties, from, Restricted(l));
            && resource.pos in Restricted(l)
            && (c.Some? ==> c.value.pos != resource.pos)
            && (e.Some? ==> e.value.pos != resource.pos)
  {
    var st1 := CollectResource(st, w, u, resource);
    var l := DecideUnits(st1, w, resourceTiles, windows, later).ledger;
    assert u.id !in UnitIds(later);
    assert l.reserved[u.id] == resource.pos;
    assert resource.pos in l.reserved.Values;
  }

  /** A worker whose last four positions are equal only takes a random
      step: it emits one move (or nothing, if no draw stays on the map),
      founds nothing and keeps its tracker. */
  lemma StuckWorkerOnlyMoves(st: TurnState, w: World, resourceTiles: seq<Tile>, windows: Windows, u: Unit)
    requires WorkerReady(st, windows, u)
    requires WellFormed(w.grid) && DrawsCardinal(w)
    requires forall t :: t in resourceTiles ==> HasResource(t.cell)
    requires Stuck(windows[u.id])
    ensures var r := DecideWorker(st, w, resourceTiles, windows, u);
            && r.trackers == st.trackers
            && r.pendingTiles == st.pendingTiles
            && (r.actions == st.actions ||
                exists d :: Cardinal(d) && InBounds(w.grid, Step(u.pos, d)) &&
                            r.actions == st.actions + [Move(u.id, d)])
  {
    var draws := DrawsFor(w, u.id);
    var r := RandomWalk(st, w, u, draws);
    assert DecideWorker(st, w, resourceTiles, windows, u) == r;
    if r.actions != st.actions {
      var d :| d in draws && InBounds(w.grid, Step(u.pos, d)) && r.actions == st.actions + [Move(u.id, d)];
      assert Cardinal(d);
    }
  }

  /** A worker that is not stuck and has a tracked destination moves
      towards it and selects nothing: its tracker and the ledger stay as
      they were. */
  lemma WorkerResumesDestination(st: TurnState, w: World, resourceTiles: seq<Tile>, windows: Windows, u: Unit)
    requires WorkerReady(st, windows, u)
    requires WellFormed(w.grid) && DrawsCardinal(w)
    requires forall t :: t in resourceTiles ==> HasResource(t.cell)
    requires !Stuck(windows[u.id]) && st.trackers[u.id].HasWork()
    ensures var r := DecideWorker(st, w, resourceTiles, windows, u);
            && r.trackers == st.trackers && r.ledger == st.ledger
            && r.pendingTiles == st.pendingTiles
            && r.actions == st.actions + [Move(u.id, w.directionTo(u.pos, st.trackers[u.id].destination.value))]
  {
  }

  /** A free, full worker founds a city tile when the population test
      passes and the game allows building where it stands; the pending
      city-tile counter rises by exactly one. */
  lemma FullWorkerBuilds(st: TurnState, w: World, resourceTiles: seq<Tile>, windows: Windows, u: Unit)
    requires WorkerReady(st, windows, u)
    requires WellFormed(w.grid) && DrawsCardinal(w)
    requires forall t :: t in resourceTiles ==> HasResource(t.cell)
    requires !Stuck(windows[u.id]) && !st.trackers[u.id].HasWork()
    requires u.spaceLeft == 0 && u.canBuild && HasFullLoad(u.cargo)
    requires var tiles := TotalCityTiles(w.player.cities) + st.pendingTiles;
             tiles == 0 || 5 * (|w.player.units| + st.pendingUnits) > 4 * tiles
    ensures var r := DecideWorker(st, w, resourceTiles, windows, u);
            && r.actions == st.actions + [BuildCity(u.id)]
            && r.pendingTiles == st.pendingTiles + 1
            && r.trackers == st.trackers && r.ledger == st.ledger
  {
  }

  /** A free, full worker whose build test fails takes its cargo to the
      closest city tile without reserving it, or takes a random step when the
      player has no city tile. */
  lemma FullWorkerDelivers(st: TurnState, w: World, resourceTiles: seq<Tile>, windows: Windows, u: Unit)
    requires WorkerReady(st, windows, u)
    requires WellFormed(w.grid) && DrawsCardinal(w)
    requires forall t :: t in resourceTiles ==> HasResource(t.cell)
    requires !Stuck(windows[u.id]) && !st.trackers[u.id].HasWork()
    requires u.spaceLeft == 0 && !ShouldBuildCityTile(w.player, st.pendingTiles, st.pendingUnits, u.cargo)
    ensures var r := DecideWorker(st, w, resourceTiles, windows, u);
            var home := ClosestCityTile(w.player.cities, u.pos);
            && r.pendingTiles == st.pendingTiles
            && (home.Some? ==> HeadsFor(st, r, w, u, home.value.pos) && r.ledger == st.ledger)
            && (home.None? ==> RandomStep(st, r, w, u))
  {
    var r := DecideWorker(st, w, resourceTiles, windows, u);
    var home := ClosestCityTile(w.player.cities, u.pos);
    if home.None? {
      var draws := DrawsFor(w, u.id);
      assert r == RandomWalk(st, w, u, draws);
      if r.actions != st.actions {
        var d :| d in draws && InBounds(w.grid, Step(u.pos, d)) && r.actions == st.actions + [Move(u.id, d)];
        assert Cardinal(d);
      }
    }
  }

  /** A free worker with cargo space and no eligible resource tile takes
      its cargo to the closest city tile, or takes a random step when the
      player has no city tile; either way nothing is founded. */
  lemma WorkerFallsBack(st: TurnState, w: World, resourceTiles: seq<Tile>, windows: Windows, u: Unit)
    requires WorkerReady(st, windows, u)
    requires WellFormed(w.grid) && DrawsCardinal(w)
    requires forall t :: t in resourceTiles ==> HasResource(t.cell)
    requires !Stuck(windows[u.id]) && !st.trackers[u.id].HasWork() && u.spaceLeft > 0
    requires NoEligibleResource(resourceTiles, w.player.research, Restricted(st.ledger))
    ensures var r := DecideWorker(st, w, resourceTiles, windows, u);
            var home := ClosestCityTile(w.player.cities, u.pos);
            && r.pendingTiles == st.pendingTiles
            && (home.Some? ==> HeadsFor(st, r, w, u, home.value.pos) && r.ledger == st.ledger)
            && (home.None? ==> RandomStep(st, r, w, u))
  {
  }

  /** A free, full worker that should found a city tile but cannot build
      where it stands heads for an empty tile outside the restricted set
      when one exists. The target is committed in its tracker only; the
      ledger is left unchanged. */
  lemma FullWorkerRelocates(st: TurnState, w: World, resourceTiles: seq<Tile>, windows: Windows, u: Unit)
    requires WorkerReady(st, windows, u)
    requires WellFormed(w.grid) && DrawsCardinal(w)
    requires forall t :: t in resourceTiles ==> HasResource(t.cell)
    requires !Stuck(windows[u.id]) && !st.trackers[u.id].HasWork()
    requires u.spaceLeft == 0 && !u.canBuild
    requires ShouldBuildCityTile(w.player, st.pendingTiles, st.pendingUnits, u.cargo)
    requires exists t :: t in EmptyTiles(w.grid) && t.pos !in Restricted(st.ledger)
    ensures var r := DecideWorker(st, w, resourceTiles, windows, u);
            && u.id in r.trackers && r.trackers[u.id].destination.Some?
            && var p := r.trackers[u.id].destination.value;
               && InBounds(w.grid, p) && IsEmpty(CellAt(w.grid, p))
               && p !in Restricted(st.ledger)
               && (forall t :: t in EmptyTiles(w.grid) && t.pos !in Restricted(st.ledger) ==>
                     Manhattan(p, u.pos) <= Manhattan(t.pos, u.pos))
               && p == ClosestEmptyTile(EmptyTiles(w.grid), u.pos, Restricted(st.ledger)).value.pos
               && r.ledger == st.ledger
               && r.pendingTiles == st.pendingTiles
               && r.actions == st.actions + [Move(u.id, w.directionTo(u.pos, p))]
  {
    var empty := ClosestEmptyTile(EmptyTiles(w.grid), u.pos, Restricted(st.ledger));
    assert empty.Some?;
  }

  /** From index `from` on, no two unit actions of `s` belong to the same unit. */
  predicate DistinctActors(s: seq<Action>, from: int) {
    forall i, j :: 0 <= from <= i < j < |s| && (s[i].Move? || s[i].BuildCity?) && (s[j].Move? || s[j].BuildCity?) ==>
      s[i].unit != s[j].unit
  }

  /** Appending at most one action of a unit that has not acted yet keeps
      the actors distinct. */
  lemma DistinctActorsExtend(prev: seq<Action>, r: seq<Action>, from: nat, ids: set<UnitId>, id: UnitId)
    requires from <= |prev| && DistinctActors(prev, from)
    requires forall k :: from <= k < |prev| ==> UnitAction(prev[k], ids)
    requires AtMostOneMore(prev, r)
    requires r != prev ==> UnitAction(r[|prev|], {id})
    requires id !in ids
    ensures DistinctActors(r, from)
  {
    if r != prev {
      forall i, j | from <= i < j < |r| && (r[i].Move? || r[i].BuildCity?) && (r[j].Move? || r[j].BuildCity?)
        ensures r[i].unit != r[j].unit
      {
        assert r[i] == r[..|prev|][i];
        if j < |prev| {
          assert r[j] == r[..|prev|][j];
        } else {
          assert UnitAction(prev[i], ids);
        }
      }
    }
  }

  /** With distinct unit ids, the unit loop gives no unit two actions. */
  lemma {:induction false} UnitLoopOneActionPerUnit(st: TurnState, w: World, resourceTiles: seq<Tile>,
                                                   windows: Windows, units: seq<Unit>)
    requires UnitIds(units) <= st.trackers.Keys
    requires forall u :: u in units && u.kind == Worker ==> u.id in windows
    requires WellFormed(w.grid) && DrawsCardinal(w)
    requires forall u :: u in units && u.kind == Cart && u.canAct && u.spaceLeft == 0 ==> |AllCityTiles(w.player.cities)| > 0
    requires forall t :: t in resourceTiles ==> HasResource(t.cell)
    ensures DistinctIds(units) ==> DistinctActors(DecideUnits(st, w, resourceTiles, windows, units).actions, |st.actions|)
    decreases |units|
  {
    if |units| > 0 && DistinctIds(units) {
      var init := units[..|units| - 1];
      var u := units[|units| - 1];
      assert forall v :: v in init ==> v in units;
      DistinctInit(units);
      UnitLoopOneActionPerUnit(st, w, resourceTiles, windows, init);
      var prev := DecideUnits(st, w, resourceTiles, windows, init);
      var r := DecideUnit(prev, w, resourceTiles, windows, u);
      assert DecideUnits(st, w, resourceTiles, windows, units) == r;
      DistinctActorsExtend(prev.actions, r.actions, |st.actions|, UnitIds(init), u.id);
    }
  }

  /** A free worker with cargo space that sees an eligible resource tile
      commits to the closest one: unrestricted, of a researched type, no
      farther than any other eligible tile, and now reserved. */
  lemma WorkerCollects(st: TurnState, w: World, resourceTiles: seq<Tile>, windows: Windows, u: Unit)
    requires WorkerReady(st, windows, u)
    requires WellFormed(w.grid) && DrawsCardinal(w)
    requires forall t :: t in resourceTiles ==> HasResource(t.cell)
    requires !Stuck(windows[u.id]) && !st.trackers[u.id].HasWork()
    requires u.spaceLeft > 0
    requires exists t :: t in resourceTiles && ResourceEligible(t, w.player.research, Restricted(st.ledger))
    ensures var r := DecideWorker(st, w, resourceTiles, windows, u);
            && u.id in r.trackers && r.trackers[u.id].destination.Some?
            && var p := r.trackers[u.id].destination.value;
               && (exists t :: t in resourceTiles && t.pos == p && ResourceEligible(t, w.player.research, Restricted(st.ledger)))
               && (forall t :: t in resourceTiles && ResourceEligible(t, w.player.research, Restricted(st.ledger)) ==>
                     Manhattan(p, u.pos) <= Manhattan(t.pos, u.pos))
               && p == ClosestResourceTile(resourceTiles, u.pos, w.player.research, Restricted(st.ledger)).value.pos
               && p in Restricted(r.ledger)
               && r.actions == st.actions + [Move(u.id, w.directionTo(u.pos, p))]
  {
    var target := ClosestResourceTile(resourceTiles, u.pos, w.player.research, Restricted(st.ledger));
    assert target.Some?;
    assert ResourceEligible(target.value, w.player.research, Restricted(st.ledger));
  }

  /** A cart never consults its tracked destination: with cargo space and
      an eligible resource tile it is committed afresh to the closest one,
      whatever it was heading for before. */
  lemma CartReselects(st: TurnState, w: World, resourceTiles: seq<Tile>, u: Unit, home: Option<CityTile>)
    requires u.kind == Cart && u.canAct && u.id in st.trackers && u.spaceLeft > 0
    requires DrawsCardinal(w)
    requires forall t :: t in resourceTiles ==> HasResource(t.cell)
    requires st.trackers[u.id].HasWork()
    requires exists t :: t in resourceTiles && ResourceEligible(t, w.player.research, Restricted(st.ledger))
    ensures var r := DecideCart(st, w, resourceTiles, u, home);
            var c := ClosestResourceTile(resourceTiles, u.pos, w.player.research, Restricted(st.ledger));
            c.Some? && r.trackers[u.id].destination == Some(c.value.pos)
  {
    var c := ClosestResourceTile(resourceTiles, u.pos, w.player.research, Restricted(st.ledger));
    assert c.Some?;
  }

  /** `move_unit_to_empty_tile` commits the tracker but reserves nothing,
      so a second full worker deciding later in the same turn from the same
      position sees the same restricted set and picks the same empty tile. */
  lemma RelocationNotReserved(st: TurnState, w: World, u: Unit, empty: Tile,
                              tiles: seq<Tile>, from: Pos)
    requires u.id in st.trackers
    ensures var r := MoveToEmptyTile(st, w, u, empty);
            ClosestEmptyTile(tiles, from, Restricted(r.ledger)) == ClosestEmptyTile(tiles, from, Restricted(st.ledger))
  {
  }
}

=== FILE: game.dfy ===
/** The slice of the game state the agent reads: the map, its own units,
    cities and research. These stand for the `lux` package's `Game`, `Cell`,
    `Unit`, `City` and `Player` classes, reduced to the fields the agent
    consults. Both `cell.has_resource()` and the truth of `cell.resource`
    are read from the one optional `resource` field. */
module Game {
  import opened Wrappers
  import opened Geometry

  type UnitId = string

  datatype ResourceType = Wood | Coal | Uranium

  /** A map cell: an optional resource and whether a city tile stands on it. */
  datatype Cell = Cell(resource: Option<ResourceType>, citytile: bool)

  /** `rows[y][x]` is the cell at `(x, y)`, as `get_cell(x, y)` reads it. */
  datatype GameMap = GameMap(width: nat, height: nat, rows: seq<seq<Cell>>)

  predicate WellFormed(m: GameMap) {
    |m.rows| == m.height && forall y :: 0 <= y < |m.rows| ==> |m.rows[y]| == m.width
  }

  predicate InBounds(m: GameMap, p: Pos) {
    0 <= p.x < m.width && 0 <= p.y < m.height
  }

  function CellAt(m: GameMap, p: Pos): Cell
    requires WellFormed(m) && InBounds(m, p)
  {
    m.rows[p.y][p.x]
  }

  datatype UnitKind = Worker | Cart

  datatype Cargo = Cargo(wood: nat, coal: nat, uranium: nat)

  /** A unit as the agent sees it. `spaceLeft` is `get_cargo_space_left()`,
      `canAct` is `can_act()` and `canBuild` is `can_build(map)`, all
      computed by the game. */
  datatype Unit = Unit(id: UnitId, pos: Pos, kind: UnitKind, cargo: Cargo,
                       spaceLeft: nat, canAct: bool, canBuild: bool)

  datatype CityTile = CityTile(pos: Pos, canAct: bool)

  datatype City = City(tiles: seq<CityTile>)

  /** `researched_coal()` and `researched_uranium()`. */
  datatype Research = Research(coal: bool, uranium: bool)

  /** `cities` is the player's city dictionary in its iteration order. */
  datatype Player = Player(units: seq<Unit>, cities: seq<City>, research: Research)

  /** Every city tile of every city, in city order then tile order. */
  function AllCityTiles(cities: seq<City>): (r: seq<CityTile>)
    ensures forall c, t :: c in cities && t in c.tiles ==> t in r
    ensures forall t :: t in r ==> exists c :: c in cities && t in c.tiles
  {
    if |cities| == 0 then [] else cities[0].tiles + AllCityTiles(cities[1..])
  }

  function UnitIds(units: seq<Unit>): set<UnitId> {
    set u | u in units :: u.id
  }

  /** Unit ids are unique among a player's units. */
  predicate DistinctIds(units: seq<Unit>) {
    forall i, j :: 0 <= i < |units| && 0 <= j < |units| && units[i].id == units[j].id ==> i == j
  }

  /** Dropping the first unit keeps ids distinct, and its id is not among
      the remaining ones. */
  lemma DistinctTail(units: seq<Unit>)
    requires |units| > 0 && DistinctIds(units)
    ensures DistinctIds(units[1..])
    ensures forall w :: w in units[1..] ==> w.id != units[0].id
  {
    var rest := units[1..];
    forall i, j | 0 <= i < |rest| && 0 <= j < |rest| && rest[i].id == rest[j].id
      ensures i == j
    {
      assert units[i + 1].id == units[j + 1].id;
    }
    forall w | w in rest ensures w.id != units[0].id {
      var j :| 0 <= j < |rest| && rest[j] == w;
      assert units[j + 1] == w;
    }
  }

  /** Dropping the last unit keeps ids distinct, and its id is not among
      the remaining ones. */
  lemma DistinctInit(units: seq<Unit>)
    requires |units| > 0 && DistinctIds(units)
    ensures DistinctIds(units[..|units| - 1])
    ensures units[|units| - 1].id !in UnitIds(units[..|units| - 1])
  {
    var init := units[..|units| - 1];
    forall i, j | 0 <= i < |init| && 0 <= j < |init| && init[i].id == init[j].id
      ensures i == j
    {
      assert units[i] == init[i] && units[j] == init[j];
    }
    forall w | w in init ensures w.id != units[|units| - 1].id {
      var k :| 0 <= k < |init| && init[k] == w;
      assert units[k] == w;
    }
  }
}

=== FILE: geometry.dfy ===
/** Grid coordinates, the five move directions and the distance the agent
    uses to rank candidate tiles. */
module Geometry {

  /** A map coordinate. Coordinates are integers because a one-step
      neighbour of an edge tile may lie outside the map before the bounds
      test rejects it. */
  datatype Pos = Pos(x: int, y: int)

  /** The game's direction tokens "n", "s", "e", "w" and "c" (stay). */
  datatype Direction = North | South | East | West | Center

  /** The four directions the random escape draws from. */
  predicate Cardinal(d: Direction) {
    d != Center
  }

  /** `get_x_pos`: east is +1, west is -1, everything else 0. */
  function DeltaX(d: Direction): int {
    if d == East then 1
    else if d == West then -1
    else 0
  }

  /** `get_y_pos`: south is +1 (rows grow downwards), north is -1. */
  function DeltaY(d: Direction): int {
    if d == South then 1
    else if d == North then -1
    else 0
  }

  /** The tile one step from `p` in direction `d`. */
  function Step(p: Pos, d: Direction): (q: Pos)
    ensures Cardinal(d) ==> Manhattan(p, q) == 1
    ensures !Cardinal(d) ==> q == p
  {
    Pos(p.x + DeltaX(d), p.y + DeltaY(d))
  }

  /** The direction that undoes a step in `d`. */
  function Opposite(d: Direction): Direction {
    match d
    case North => South
    case South => North
    case East => West
    case West => East
    case Center => Center
  }

  /** `get_x_pos` and `get_y_pos` each move along one axis: east and west
      change only x, north and south change only y, and a step followed by
      the opposite step returns to where it started. */
  lemma DeltasAxisAligned(p: Pos, d: Direction)
    ensures DeltaX(d) != 0 <==> d == East || d == West
    ensures DeltaY(d) != 0 <==> d == North || d == South
    ensures Step(Step(p, d), Opposite(d)) == p
  {
  }

  function Abs(n: int): nat {
    if n < 0 then -n else n
  }

  /** Manhattan distance, the metric `Position.distance_to` computes on the grid. */
  function Manhattan(a: Pos, b: Pos): nat {
    Abs(a.x - b.x) + Abs(a.y - b.y)
  }

  /** The four cardinal steps from one tile reach four different tiles, so
      the direction a random move was drawn with is recoverable from the
      tile it reserves. */
  lemma StepInjective(p: Pos, d1: Direction, d2: Direction)
    requires Cardinal(d1) && Cardinal(d2)
    requires Step(p, d1) == Step(p, d2)
    ensures d1 == d2
  {
  }

  /** Row-major scan order: by row (`y`) first, then by column (`x`). */
  predicate RowMajorBefore(a: Pos, b: Pos) {
    a.y < b.y || (a.y == b.y && a.x < b.x)
  }
}

=== FILE: history.dfy ===
/** The per-worker position history `unit_pos_dict` (StarterKit_1/agent.py:358-376):
    a `deque(maxlen=4)` per worker id that receives the worker's position
    every turn, and the stuck test that reads it. */
module History {
  import opened Geometry
  import opened Game

  const Capacity: nat := 4

  type Windows = map<UnitId, seq<Pos>>

  /** `append` on a `deque(maxlen=4)`: the new position goes at the back and
      the oldest falls off the front once four are held. */
  function Push(h: seq<Pos>, p: Pos): (r: seq<Pos>)
    requires |h| <= Capacity
    ensures |r| == if |h| < Capacity then |h| + 1 else Capacity
    ensures r[|r| - 1] == p
  {
    if |h| < Capacity then h + [p] else h[1..] + [p]
  }

  /** The window after a push is the newest `min(n + 1, 4)` positions of
      the old window followed by the new one. */
  lemma PushKeepsNewest(h: seq<Pos>, p: Pos)
    requires |h| <= Capacity
    ensures var r := Push(h, p); r == (h + [p])[|h| + 1 - |r|..]
  {
  }

  /** The stuck test: four recorded positions, and their set has one element. */
  predicate Stuck(h: seq<Pos>) {
    |h| == Capacity && |set q | q in h| == 1
  }

  /** The set test is the same as four equal positions. */
  lemma StuckIffSame(h: seq<Pos>)
    ensures Stuck(h) <==> |h| == Capacity && forall i :: 0 <= i < |h| ==> h[i] == h[0]
  {
    if |h| == Capacity {
      var s := set q | q in h;
      if forall i :: 0 <= i < |h| ==> h[i] == h[0] {
        assert s == {h[0]};
      } else {
        var i :| 0 <= i < |h| && h[i] != h[0];
        assert {h[0], h[i]} <= s;
        assert |{h[0], h[i]}| == 2;
        SubsetCard({h[0], h[i]}, s);
      }
    }
  }

  lemma SubsetCard<T>(a: set<T>, b: set<T>)
    requires a <= b
    ensures |a| <= |b|
  {
    assert b == a + (b - a);
  }

  /** A worker that is pushed the same position four times in a row is
      stuck, whatever it held before. */
  lemma FourEqualPushesStuck(h: seq<Pos>, p: Pos)
    requires |h| <= Capacity
    ensures Stuck(Push(Push(Push(Push(h, p), p), p), p))
  {
    var h1 := Push(h, p);
    PushTail(h, p, 0);
    var h2 := Push(h1, p);
    PushTail(h1, p, 1);
    var h3 := Push(h2, p);
    PushTail(h2, p, 2);
    var h4 := Push(h3, p);
    PushTail(h3, p, 3);
    StuckIffSame(h4);
  }

  /** The last `k` positions of `h` are all `p`. */
  predicate TailIs(h: seq<Pos>, p: Pos, k: nat) {
    k <= |h| && forall i :: |h| - k <= i < |h| ==> h[i] == p
  }

  lemma PushTail(h: seq<Pos>, p: Pos, k: nat)
    requires |h| <= Capacity && k < Capacity && TailIs(h, p, k)
    ensures TailIs(Push(h, p), p, k + 1)
  {
    var r := Push(h, p);
    if |h| < Capacity {
      assert r == h + [p];
    } else {
      assert r == h[1..] + [p];
    }
  }

  predicate Bounded(windows: Windows) {
    forall id :: id in windows ==> |windows[id]| <= Capacity
  }

  /** The most recent position of a window is `p`. */
  predicate EndsAt(h: seq<Pos>, p: Pos) {
    |h| > 0 && h[|h| - 1] == p
  }

  /** One pass of the recording loop: a worker has its position pushed onto
      its window, created empty on first sight; a cart is skipped. */
  function RecordOne(windows: Windows, u: Unit): (r: Windows)
    requires Bounded(windows)
    ensures Bounded(r)
    ensures r.Keys == if u.kind == Worker then windows.Keys + {u.id} else windows.Keys
    ensures u.kind == Worker ==> EndsAt(r[u.id], u.pos)
    ensures forall id :: id in windows && id != u.id ==> r[id] == windows[id]
  {
    if u.kind == Worker then
      var h := Push(Window(windows, u.id), u.pos);
      assert h[|h| - 1] == u.pos;
      windows[u.id := h]
    else windows
  }

  /** The window held for `id`, empty if none (a new `deque`). */
  function Window(windows: Windows, id: UnitId): (h: seq<Pos>)
    requires Bounded(windows)
    ensures |h| <= Capacity
  {
    if id in windows then windows[id] else []
  }

  /** The recording loop before the unit loop, over every worker whether
      or not it can act. */
  function Record(windows: Windows, units: seq<Unit>): (r: Windows)
    requires Bounded(windows)
    ensures Bounded(r)
    ensures r.Keys == windows.Keys + set u | u in units && u.kind == Worker :: u.id
    decreases |units|
  {
    if |units| == 0 then windows
    else
      assert forall v :: v in units <==> v == units[0] || v in units[1..];
      Record(RecordOne(windows, units[0]), units[1..])
  }

  /** Recording units none of which has id `id` leaves that id's window alone. */
  lemma {:induction false} RecordKeeps(windows: Windows, units: seq<Unit>, id: UnitId)
    requires Bounded(windows)
    requires forall w :: w in units ==> w.id != id
    requires id in windows
    ensures id in Record(windows, units) && Record(windows, units)[id] == windows[id]
    decreases |units|
  {
    if |units| > 0 {
      assert units[0] in units;
      assert forall w :: w in units[1..] ==> w in units;
      RecordKeeps(RecordOne(windows, units[0]), units[1..], id);
    }
  }

  /** With distinct ids each worker's window ends with its current position. */
  lemma {:induction false} RecordEndsAtPosition(windows: Windows, units: seq<Unit>)
    requires Bounded(windows)
    requires DistinctIds(units)
    ensures forall i :: 0 <= i < |units| && units[i].kind == Worker ==>
              EndsAt(Window(Record(windows, units), units[i].id), units[i].pos)
    decreases |units|
  {
    if |units| > 0 {
      var u := units[0];
      var rest := units[1..];
      var next := RecordOne(windows, u);
      var r := Record(windows, units);
      assert r == Record(next, rest);
      DistinctTail(units);
      RecordEndsAtPosition(next, rest);
      if u.kind == Worker {
        RecordKeeps(next, rest, u.id);
      }
      forall i | 1 <= i < |units| && units[i].kind == Worker
        ensures EndsAt(Window(r, units[i].id), units[i].pos)
      {
        assert rest[i - 1] == units[i];
      }
    }
  }

  /** With distinct ids the recording loop pushes each worker's current
      position exactly once onto the window it held before the turn. */
  lemma {:induction false} RecordSpec(windows: Windows, units: seq<Unit>)
    requires Bounded(windows)
    requires DistinctIds(units)
    ensures forall i :: 0 <= i < |units| && units[i].kind == Worker ==>
              units[i].id in Record(windows, units) &&
              Record(windows, units)[units[i].id] == Push(Window(windows, units[i].id), units[i].pos)
    decreases |units|
  {
    if |units| > 0 {
      var u := units[0];
      var rest := units[1..];
      var next := RecordOne(windows, u);
      var r := Record(windows, units);
      assert r == Record(next, rest);
      DistinctTail(units);
      RecordSpec(next, rest);
      if u.kind == Worker {
        RecordKeeps(next, rest, u.id);
      }
      forall i | 1 <= i < |units| && units[i].kind == Worker
        ensures units[i].id in r && r[units[i].id] == Push(Window(windows, units[i].id), units[i].pos)
      {
        assert rest[i - 1] == units[i];
        assert units[i].id != u.id;
        assert Window(next, units[i].id) == Window(windows, units[i].id);
      }
    }
  }

  /** `units` holds a worker with id `id` standing at `p`. */
  predicate WorkerAt(units: seq<Unit>, id: UnitId, p: Pos) {
    exists i :: 0 <= i < |units| && units[i].id == id && units[i].kind == Worker && units[i].pos == p
  }

  /** Recording one turn in which worker `id` stands at `p` pushes `p`
      onto its window. */
  lemma RecordWorkerAt(windows: Windows, units: seq<Unit>, id: UnitId, p: Pos)
    requires Bounded(windows) && DistinctIds(units) && WorkerAt(units, id, p)
    ensures Window(Record(windows, units), id) == Push(Window(windows, id), p)
  {
    var i :| 0 <= i < |units| && units[i].id == id && units[i].kind == Worker && units[i].pos == p;
    RecordSpec(windows, units);
  }

  /** A worker recorded at the same position on four consecutive turns is
      stuck on the fourth, whatever its window held before. */
  lemma StandingStillFourTurnsStuck(windows: Windows, t1: seq<Unit>, t2: seq<Unit>, t3: seq<Unit>, t4: seq<Unit>,
                                    id: UnitId, p: Pos)
    requires Bounded(windows)
    requires DistinctIds(t1) && DistinctIds(t2) && DistinctIds(t3) && DistinctIds(t4)
    requires WorkerAt(t1, id, p) && WorkerAt(t2, id, p) && WorkerAt(t3, id, p) && WorkerAt(t4, id, p)
    ensures Stuck(Window(Record(Record(Record(Record(windows, t1), t2), t3), t4), id))
  {
    var w1 := Record(windows, t1);
    var w2 := Record(w1, t2);
    var w3 := Record(w2, t3);
    var w4 := Record(w3, t4);
    RecordWorkerAt(windows, t1, id, p);
    RecordWorkerAt(w1, t2, id, p);
    RecordWorkerAt(w2, t3, id, p);
    RecordWorkerAt(w3, t4, id, p);
    FourEqualPushesStuck(Window(windows, id), p);
  }
}

=== FILE: ledger.dfy ===
/** The reservation ledger `update_occupied_tiles`, `update_reserved_tiles`
    and `get_restricted_tiles` (StarterKit_1/agent.py:287-319). Both maps
    are rebuilt from empty every turn from the live units and the freshly
    refreshed trackers; the positions in either map are the tiles no
    resource or empty-tile selector may pick. */
module Ledger {
  import opened Wrappers
  import opened Geometry
  import opened Game
  import opened Tracker
  import opened TrackerTable

  /** `occupied_tiles` and `reserved_tiles`, both keyed by unit id. */
  datatype Ledger = Ledger(occupied: map<UnitId, Pos>, reserved: map<UnitId, Pos>)

  /** `update_occupied_tiles`: the units that cannot act, at their positions.
      The loop runs over `units` in order; a later entry for the same id
      overwrites an earlier one. */
  function Occupied(units: seq<Unit>): (r: map<UnitId, Pos>)
    ensures r.Keys == set u | u in units && !u.canAct :: u.id
    ensures forall id :: id in r ==> exists u :: u in units && !u.canAct && u.id == id && r[id] == u.pos
    decreases |units|
  {
    if |units| == 0 then map[]
    else
      var prev := Occupied(units[..|units| - 1]);
      var u := units[|units| - 1];
      assert forall v :: v in units <==> v in units[..|units| - 1] || v == u;
      if !u.canAct then prev[u.id := u.pos] else prev
  }

  /** `update_reserved_tiles`: every live unit whose tracker has a
      destination, mapped to that destination. */
  function Reserved(units: seq<Unit>, trackers: Table): (r: map<UnitId, Pos>)
    ensures r.Keys == set u | u in units && u.id in trackers && trackers[u.id].HasWork() :: u.id
    ensures forall id :: id in r ==> r[id] == trackers[id].destination.value
    decreases |units|
  {
    if |units| == 0 then map[]
    else
      var prev := Reserved(units[..|units| - 1], trackers);
      var u := units[|units| - 1];
      assert forall v :: v in units <==> v in units[..|units| - 1] || v == u;
      if u.id in trackers && trackers[u.id].destination.Some? then
        prev[u.id := trackers[u.id].destination.value]
      else prev
  }

  /** The start-of-turn ledger, built from nothing but this turn's units
      and trackers. */
  function Rebuild(units: seq<Unit>, trackers: Table): Ledger {
    Ledger(Occupied(units), Reserved(units, trackers))
  }

  /** `get_restricted_tiles`: the occupied positions followed by the
      reserved ones. Only membership is ever consulted, so the list is
      kept as the set of its elements. */
  function Restricted(l: Ledger): set<Pos> {
    l.occupied.Values + l.reserved.Values
  }

  /** `reserved_tiles[unit.id] = p`. The only position it can release is
      the one the same unit had reserved before. */
  function Reserve(l: Ledger, id: UnitId, p: Pos): (r: Ledger)
    ensures id in r.reserved && r.reserved[id] == p
    ensures p in Restricted(r)
    ensures Restricted(r) <= Restricted(l) + {p}
    ensures forall q :: q in Restricted(l) && q !in Restricted(r) ==> id in l.reserved && l.reserved[id] == q
    ensures r.occupied == l.occupied && r.reserved.Keys == l.reserved.Keys + {id}
    ensures forall k :: k in l.reserved && k != id ==> r.reserved[k] == l.reserved[k]
  {
    var r := l.(reserved := l.reserved[id := p]);
    ReserveWitnesses(l, id, p);
    r
  }

  /** `b` keeps `a`'s occupied map and every reservation of a unit outside
      `ids`: only the units in `ids` may have reserved something new. */
  predicate KeepsOthers(a: Ledger, b: Ledger, ids: set<UnitId>) {
    && b.occupied == a.occupied
    && forall k :: k in a.reserved && k !in ids ==> k in b.reserved && b.reserved[k] == a.reserved[k]
  }

  lemma ReserveWitnesses(l: Ledger, id: UnitId, p: Pos)
    ensures var r := l.(reserved := l.reserved[id := p]);
            && p in Restricted(r)
            && Restricted(r) <= Restricted(l) + {p}
            && forall q :: q in Restricted(l) && q !in Restricted(r) ==> id in l.reserved && l.reserved[id] == q
  {
    var r := l.(reserved := l.reserved[id := p]);
    assert r.reserved[id] == p;
    forall q | q in Restricted(r) ensures q in Restricted(l) + {p} {
      if q in r.reserved.Values && q !in r.occupied.Values {
        var k :| k in r.reserved && r.reserved[k] == q;
        if k != id { assert l.reserved[k] == q; }
      }
    }
    forall q | q in Restricted(l) && !(id in l.reserved && l.reserved[id] == q)
      ensures q in Restricted(r)
    {
      if q in l.reserved.Values && q !in l.occupied.Values {
        var k :| k in l.reserved && l.reserved[k] == q;
        assert k != id;
        assert r.reserved[k] == q;
      }
    }
  }

  /** With distinct unit ids, the occupied map sends each unit that cannot
      act to its own position. */
  lemma OccupiedExact(units: seq<Unit>)
    requires DistinctIds(units)
    ensures forall u :: u in units && !u.canAct ==> u.id in Occupied(units) && Occupied(units)[u.id] == u.pos
  {
    var occ := Occupied(units);
    forall u | u in units && !u.canAct
      ensures u.id in occ && occ[u.id] == u.pos
    {
      assert u.id in occ;
      var v :| v in units && !v.canAct && v.id == u.id && occ[u.id] == v.pos;
      var i :| 0 <= i < |units| && units[i] == u;
      var j :| 0 <= j < |units| && units[j] == v;
    }
  }

  /** The rebuilt ledger restricts exactly the positions of this turn's
      units that cannot act and the destinations of this turn's trackers;
      nothing carries over from an earlier turn's ledger. */
  lemma RestrictedExactly(units: seq<Unit>, trackers: Table, p: Pos)
    requires DistinctIds(units)
    ensures p in Restricted(Rebuild(units, trackers)) <==>
              exists u :: u in units &&
                ((!u.canAct && u.pos == p) ||
                 (u.id in trackers && trackers[u.id].destination == Some(p)))
  {
    RestrictedHasCause(units, trackers, p);
    if exists u :: u in units && ((!u.canAct && u.pos == p) ||
                                  (u.id in trackers && trackers[u.id].destination == Some(p))) {
      var u :| u in units && ((!u.canAct && u.pos == p) ||
                              (u.id in trackers && trackers[u.id].destination == Some(p)));
      CauseRestricts(units, trackers, u);
    }
  }

  /** Every restricted position has a unit behind it. */
  lemma RestrictedHasCause(units: seq<Unit>, trackers: Table, p: Pos)
    ensures p in Restricted(Rebuild(units, trackers)) ==>
              exists u :: u in units &&
                ((!u.canAct && u.pos == p) ||
                 (u.id in trackers && trackers[u.id].destination == Some(p)))
  {
    var l := Rebuild(units, trackers);
    if p in Restricted(l) {
      if p in l.occupied.Values {
        var id :| id in l.occupied && l.occupied[id] == p;
        var u :| u in units && !u.canAct && u.id == id && l.occupied[id] == u.pos;
      } else {
        var id :| id in l.reserved && l.reserved[id] == p;
        var u :| u in units && u.id in trackers && trackers[u.id].HasWork() && u.id == id;
      }
    }
  }

  /** With distinct ids, a unit that cannot act restricts its own position
      and a unit with a tracked destination restricts that destination. */
  lemma CauseRestricts(units: seq<Unit>, trackers: Table, u: Unit)
    requires DistinctIds(units) && u in units
    ensures !u.canAct ==> u.pos in Restricted(Rebuild(units, trackers))
    ensures u.id in trackers && trackers[u.id].destination.Some? ==>
              trackers[u.id].destination.value in Restricted(Rebuild(units, trackers))
  {
    var l := Rebuild(units, trackers);
    OccupiedExact(units);
    if !u.canAct {
      assert l.occupied[u.id] == u.pos;
    }
    if u.id in trackers && trackers[u.id].destination.Some? {
      assert l.reserved[u.id] == trackers[u.id].destination.value;
    }
  }
}

=== FILE: population.dfy ===
/** The population policy (StarterKit_1/agent.py:118-176): pure threshold
    tests on the player's unit and city-tile counts, each raised by the
    builds and spawns already decided earlier in the same turn. */
module Population {
  import opened Game

  /** The units-per-city-tile ratio above which a worker founds a new city
      tile, and at or below which a city tile spawns a unit. */
  const SpawnRatio: real := 0.8

  /** The cargo amount of one resource the build test calls a full load. */
  const FullLoad: nat := 100

  /** `get_total_city_tiles`: the city tiles of all cities. */
  function TotalCityTiles(cities: seq<City>): (n: nat)
    ensures n == |AllCityTiles(cities)|
  {
    if |cities| == 0 then 0 else |cities[0].tiles| + TotalCityTiles(cities[1..])
  }

  /** `get_total_units`. */
  function TotalUnits(p: Player): nat {
    |p.units|
  }

  function CountKind(units: seq<Unit>, kind: UnitKind): (n: nat)
    ensures n <= |units|
  {
    if |units| == 0 then 0
    else (if units[0].kind == kind then 1 else 0) + CountKind(units[1..], kind)
  }

  /** Every unit is a worker or a cart. */
  lemma {:induction false} KindsPartitionUnits(units: seq<Unit>)
    ensures CountKind(units, Worker) + CountKind(units, Cart) == |units|
  {
    if |units| > 0 {
      KindsPartitionUnits(units[1..]);
    }
  }

  /** `enough_resource`: exactly 100 of wood, coal or uranium. */
  predicate HasFullLoad(c: Cargo) {
    c.wood == FullLoad || c.coal == FullLoad || c.uranium == FullLoad
  }

  /** `total_workers / citytiles_count`, exact. */
  function UnitsPerTile(units: nat, tiles: nat): real
    requires tiles > 0
  {
    units as real / tiles as real
  }

  /** The 0.8 ratio test in integers: `units / tiles > 0.8` exactly when
      `5 * units > 4 * tiles`. */
  lemma RatioAboveThreshold(units: nat, tiles: nat)
    requires tiles > 0
    ensures UnitsPerTile(units, tiles) > SpawnRatio <==> 5 * units > 4 * tiles
  {
    var q := UnitsPerTile(units, tiles);
    var t := tiles as real;
    var d := q - SpawnRatio;
    assert q * t == units as real;
    assert d * t == units as real - SpawnRatio * t;
    assert d > 0.0 ==> d * t > 0.0;
    assert d <= 0.0 ==> d * t <= 0.0;
  }

  /** `should_we_build_a_citytile` for a unit with cargo `cargo`, given
      `pendingTiles` builds and `pendingUnits` spawns already decided this
      turn. */
  function ShouldBuildCityTile(p: Player, pendingTiles: nat, pendingUnits: nat, cargo: Cargo): (r: bool)
    ensures r <==> HasFullLoad(cargo) &&
                   (var tiles := TotalCityTiles(p.cities) + pendingTiles;
                    var units := |p.units| + pendingUnits;
                    tiles == 0 || 5 * units > 4 * tiles)
  {
    var tiles := TotalCityTiles(p.cities) + pendingTiles;
    var units := TotalUnits(p) + pendingUnits;
    var enough := HasFullLoad(cargo);
    if tiles == 0 then enough
    else
      RatioAboveThreshold(units, tiles);
      if UnitsPerTile(units, tiles) > SpawnRatio then enough else false
  }

  /** `should_we_create_a_worker`, with the same pending counters. */
  function ShouldCreateUnit(p: Player, pendingTiles: nat, pendingUnits: nat): (r: bool)
    ensures r <==> (var tiles := TotalCityTiles(p.cities) + pendingTiles;
                    var units := |p.units| + pendingUnits;
                    tiles != 0 && 5 * units <= 4 * tiles)
  {
    var tiles := TotalCityTiles(p.cities) + pendingTiles;
    var units := TotalUnits(p) + pendingUnits;
    if tiles != 0 then
      RatioAboveThreshold(units, tiles);
      UnitsPerTile(units, tiles) <= SpawnRatio
    else false
  }

  datatype NewUnit = NewWorker | NewCart

  /** `create_unit_type`: a cart while carts are fewer than a fifth of the
      workers (rounded down), otherwise a worker. Pending spawns are not
      counted. */
  function CreateUnitType(units: seq<Unit>): (r: NewUnit)
    ensures r == NewCart <==> 5 * (CountKind(units, Cart) + 1) <= CountKind(units, Worker)
    ensures CountKind(units, Worker) < 5 ==> r == NewWorker
  {
    var carts := CountKind(units, Cart);
    var workers := CountKind(units, Worker);
    if carts < workers / 5 then NewCart else NewWorker
  }

  /** With at least one (projected) city tile, exactly one of the two
      ratio tests passes: founding needs the ratio strictly above 0.8,
      spawning needs it at or below, so at exactly 0.8 a city tile spawns
      and no worker founds. */
  lemma BuildAndSpawnExclusive(p: Player, pendingTiles: nat, pendingUnits: nat, cargo: Cargo)
    requires TotalCityTiles(p.cities) + pendingTiles > 0
    requires HasFullLoad(cargo)
    ensures ShouldBuildCityTile(p, pendingTiles, pendingUnits, cargo) != ShouldCreateUnit(p, pendingTiles, pendingUnits)
  {
  }

  /** With no city tile at all (pending included) a full-loaded worker
      always founds one and no unit is spawned, whatever the unit count. */
  lemma NoCityTilesMeansBuild(p: Player, pendingUnits: nat, cargo: Cargo)
    requires TotalCityTiles(p.cities) == 0
    requires HasFullLoad(cargo)
    ensures ShouldBuildCityTile(p, 0, pendingUnits, cargo)
    ensures !ShouldCreateUnit(p, 0, pendingUnits)
  {
  }

  /** One city tile, no units, nothing pending: a spawn is authorised and
      the new unit is a worker, since 0 carts is not below 0 / 5 = 0. */
  lemma FirstSpawnIsWorker(p: Player)
    requires TotalCityTiles(p.cities) == 1 && |p.units| == 0
    ensures ShouldCreateUnit(p, 0, 0)
    ensures CreateUnitType(p.units) == NewWorker
  {
  }

  /** Whether the `i`-th acting city tile of one city-tile loop spawns, had
      every tile before it spawned: the spawn test sees `i` more pending
      units than the loop started with. */
  predicate SpawnSlot(p: Player, pendingTiles: nat, pendingUnits: nat, i: nat) {
    ShouldCreateUnit(p, pendingTiles, pendingUnits + i)
  }

  /** The spawns the first `n` acting city tiles make when each one asks
      the spawn test with the spawns made so far added to the pending
      units, as the city-tile loop does (agent.py:428-443). */
  function Spawned(p: Player, pendingTiles: nat, pendingUnits: nat, n: nat): (r: nat)
    ensures r <= n
  {
    if n == 0 then 0
    else
      var s := Spawned(p, pendingTiles, pendingUnits, n - 1);
      s + (if ShouldCreateUnit(p, pendingTiles, pendingUnits + s) then 1 else 0)
  }

  /** The spawns of one city-tile loop form a prefix: once a tile does
      research every later tile does too, so the `n`-th acting tile spawns
      exactly when `SpawnSlot` holds for `n`. */
  lemma {:induction false} SpawnsArePrefix(p: Player, pendingTiles: nat, pendingUnits: nat, n: nat)
    ensures Spawned(p, pendingTiles, pendingUnits, n) == n ||
            !ShouldCreateUnit(p, pendingTiles, pendingUnits + Spawned(p, pendingTiles, pendingUnits, n))
    ensures ShouldCreateUnit(p, pendingTiles, pendingUnits + Spawned(p, pendingTiles, pendingUnits, n)) <==>
            SpawnSlot(p, pendingTiles, pendingUnits, n)
  {
    if n > 0 {
      SpawnsArePrefix(p, pendingTiles, pendingUnits, n - 1);
    }
  }
}

=== FILE: scans.dfy ===
/** The row-major map scans `get_resource_tiles` and `get_empty_tiles`
    (StarterKit_1/agent.py:34-61). Both walk `y` over the rows and, inside,
    `x` over the columns; the result lists the qualifying cells in that
    order, which is the order the closest-tile selectors break ties by. */
module Scans {
  import opened Wrappers
  import opened Geometry
  import opened Game

  /** A cell together with its coordinate (a `lux` `Cell` carries its `pos`). */
  datatype Tile = Tile(pos: Pos, cell: Cell)

  predicate RowMajorSorted(s: seq<Tile>) {
    forall i, j :: 0 <= i < j < |s| ==> RowMajorBefore(s[i].pos, s[j].pos)
  }

  /** The tile `t` is the map's own cell at `t.pos`. */
  predicate OnMap(m: GameMap, t: Tile)
    requires WellFormed(m)
  {
    InBounds(m, t.pos) && t.cell == CellAt(m, t.pos)
  }

  lemma SortedConcat(a: seq<Tile>, b: seq<Tile>)
    requires RowMajorSorted(a) && RowMajorSorted(b)
    requires forall s, t :: s in a && t in b ==> RowMajorBefore(s.pos, t.pos)
    ensures RowMajorSorted(a + b)
  {
    forall i, j | 0 <= i < j < |a + b|
      ensures RowMajorBefore((a + b)[i].pos, (a + b)[j].pos)
    {
      if j < |a| {
        assert (a + b)[i] == a[i] && (a + b)[j] == a[j];
      } else if i >= |a| {
        assert (a + b)[i] == b[i - |a|] && (a + b)[j] == b[j - |a|];
      } else {
        assert (a + b)[i] in a && (a + b)[j] in b;
      }
    }
  }

  /** The inner loop: columns `x .. width-1` of row `y`. */
  function RowTiles(m: GameMap, y: nat, x: nat): (r: seq<Tile>)
    requires WellFormed(m) && y < m.height && x <= m.width
    ensures forall t :: t in r <==> OnMap(m, t) && t.pos.y == y && x <= t.pos.x
    ensures RowMajorSorted(r)
    decreases m.width - x
  {
    if x == m.width then []
    else
      var here := Tile(Pos(x, y), m.rows[y][x]);
      var rest := RowTiles(m, y, x + 1);
      SortedConcat([here], rest);
      [here] + rest
  }

  /** The outer loop: rows `y .. height-1`, each scanned left to right. */
  function GridTiles(m: GameMap, y: nat): (r: seq<Tile>)
    requires WellFormed(m) && y <= m.height
    ensures forall t :: t in r <==> OnMap(m, t) && y <= t.pos.y
    ensures RowMajorSorted(r)
    decreases m.height - y
  {
    if y == m.height then []
    else
      var row := RowTiles(m, y, 0);
      var rest := GridTiles(m, y + 1);
      SortedConcat(row, rest);
      row + rest
  }

  /** Every cell of the map in row-major order. */
  function AllTiles(m: GameMap): (r: seq<Tile>)
    requires WellFormed(m)
    ensures forall t :: t in r <==> OnMap(m, t)
    ensures RowMajorSorted(r)
  {
    GridTiles(m, 0)
  }

  /** The tiles of `s` whose cell passes `keep`, in their order in `s`. */
  function Filter(s: seq<Tile>, keep: Cell -> bool): (r: seq<Tile>)
    ensures forall t :: t in r <==> t in s && keep(t.cell)
  {
    if |s| == 0 then []
    else (if keep(s[0].cell) then [s[0]] else []) + Filter(s[1..], keep)
  }

  lemma {:induction false} FilterSorted(s: seq<Tile>, keep: Cell -> bool)
    requires RowMajorSorted(s)
    ensures RowMajorSorted(Filter(s, keep))
  {
    if |s| > 0 {
      var rest := s[1..];
      assert RowMajorSorted(rest) by {
        forall i, j | 0 <= i < j < |rest|
          ensures RowMajorBefore(rest[i].pos, rest[j].pos)
        {
          assert rest[i] == s[i + 1] && rest[j] == s[j + 1];
        }
      }
      FilterSorted(rest, keep);
      var head := if keep(s[0].cell) then [s[0]] else [];
      forall a, b | a in head && b in Filter(rest, keep)
        ensures RowMajorBefore(a.pos, b.pos)
      {
        var k :| 0 <= k < |rest| && rest[k] == b;
        assert s[k + 1] == b;
      }
      SortedConcat(head, Filter(rest, keep));
    }
  }

  /** `cell.has_resource()`, taken to be the same test as the truth of
      `cell.resource` in `get_empty_tiles`. */
  predicate HasResource(c: Cell) {
    c.resource.Some?
  }

  /** A cell `get_empty_tiles` keeps: neither a resource nor a city tile. */
  predicate IsEmpty(c: Cell) {
    c.resource.None? && !c.citytile
  }

  /** `get_resource_tiles`: exactly the map's resource cells, row-major. */
  function ResourceTiles(m: GameMap): (r: seq<Tile>)
    requires WellFormed(m)
    ensures forall t :: t in r <==> OnMap(m, t) && HasResource(t.cell)
    ensures RowMajorSorted(r)
  {
    FilterSorted(AllTiles(m), HasResource);
    Filter(AllTiles(m), HasResource)
  }

  /** `get_empty_tiles`: exactly the map's cells with no resource and no
      city tile, row-major. */
  function EmptyTiles(m: GameMap): (r: seq<Tile>)
    requires WellFormed(m)
    ensures forall t :: t in r <==> OnMap(m, t) && IsEmpty(t.cell)
    ensures RowMajorSorted(r)
  {
    FilterSorted(AllTiles(m), IsEmpty);
    Filter(AllTiles(m), IsEmpty)
  }
}

=== FILE: select.dfy ===
/** The closest-tile selectors `get_closest_resource_tile`,
    `get_closest_empty_tile` and `get_closest_city_tile`
    (StarterKit_1/agent.py:64-115). All three share one loop: keep the
    best candidate so far, replace it only on a strictly smaller distance,
    and skip candidates that are not eligible. The first eligible candidate
    at the minimum distance therefore wins. */
module Select {
  import opened Wrappers
  import opened Geometry
  import opened Game
  import opened Scans

  /** `k` is the first eligible candidate among `cands[..n]` at the
      minimum distance among the eligible ones there. */
  ghost predicate FirstClosestUpTo<T>(cands: seq<T>, ok: T -> bool, cost: T -> nat, n: int, k: int)
    requires n <= |cands|
  {
    && 0 <= k < n
    && ok(cands[k])
    && (forall j :: 0 <= j < n && ok(cands[j]) ==> cost(cands[k]) <= cost(cands[j]))
    && (forall j :: 0 <= j < k && ok(cands[j]) ==> cost(cands[k]) < cost(cands[j]))
  }

  ghost predicate FirstClosest<T>(cands: seq<T>, ok: T -> bool, cost: T -> nat, k: int) {
    FirstClosestUpTo(cands, ok, cost, |cands|, k)
  }

  /** The scan loop from position `i`, with `best` the winner so far. */
  function ClosestFrom<T>(cands: seq<T>, ok: T -> bool, cost: T -> nat, i: nat, best: Option<nat>): (r: Option<nat>)
    requires i <= |cands|
    requires best.None? ==> forall j :: 0 <= j < i ==> !ok(cands[j])
    requires best.Some? ==> FirstClosestUpTo(cands, ok, cost, i, best.value)
    ensures r.None? <==> forall j :: 0 <= j < |cands| ==> !ok(cands[j])
    ensures r.Some? ==> FirstClosest(cands, ok, cost, r.value)
    decreases |cands| - i
  {
    if i == |cands| then best
    else
      var better := ok(cands[i]) && (best.None? || cost(cands[i]) < cost(cands[best.value]));
      ClosestFrom(cands, ok, cost, i + 1, if better then Some(i) else best)
  }

  /** The index of the first eligible candidate at minimum distance, or
      None when no candidate is eligible. */
  function ClosestIndex<T>(cands: seq<T>, ok: T -> bool, cost: T -> nat): (r: Option<nat>)
    ensures r.None? <==> forall j :: 0 <= j < |cands| ==> !ok(cands[j])
    ensures r.Some? ==> FirstClosest(cands, ok, cost, r.value)
  {
    ClosestFrom(cands, ok, cost, 0, None)
  }

  /** The first-closest index is unique, so `ClosestIndex` is fully
      determined by the `FirstClosest` description. */
  lemma FirstClosestUnique<T>(cands: seq<T>, ok: T -> bool, cost: T -> nat, k1: int, k2: int)
    requires FirstClosest(cands, ok, cost, k1) && FirstClosest(cands, ok, cost, k2)
    ensures k1 == k2
  {
  }

  /** A resource type the player may harvest: coal needs coal research,
      uranium needs uranium research. */
  predicate Unlocked(kind: ResourceType, research: Research) {
    && (kind == Coal ==> research.coal)
    && (kind == Uranium ==> research.uranium)
  }

  /** A candidate `get_closest_resource_tile` may return. */
  predicate ResourceEligible(t: Tile, research: Research, restricted: set<Pos>) {
    t.cell.resource.Some? && Unlocked(t.cell.resource.value, research) && t.pos !in restricted
  }

  function ResourceFilter(research: Research, restricted: set<Pos>): Tile -> bool {
    (t: Tile) => ResourceEligible(t, research, restricted)
  }

  function EmptyFilter(restricted: set<Pos>): Tile -> bool {
    (t: Tile) => t.pos !in restricted
  }

  function TileDistance(from: Pos): Tile -> nat {
    (t: Tile) => Manhattan(t.pos, from)
  }

  function CityTileDistance(from: Pos): CityTile -> nat {
    (t: CityTile) => Manhattan(t.pos, from)
  }

  function AnyCityTile(): CityTile -> bool {
    (t: CityTile) => true
  }

  function Lookup<T>(s: seq<T>, k: Option<nat>): (r: Option<T>)
    requires k.Some? ==> k.value < |s|
    ensures r.Some? <==> k.Some?
    ensures k.Some? ==> r.value == s[k.value]
  {
    if k.Some? then Some(s[k.value]) else None
  }

  /** `get_closest_resource_tile` for a unit at `from`. The tiles are the
      resource scan's output, so each holds a resource (the source reads
      `resource.type` of every candidate). */
  function ClosestResourceTile(tiles: seq<Tile>, from: Pos, research: Research, restricted: set<Pos>): (r: Option<Tile>)
    requires forall t :: t in tiles ==> HasResource(t.cell)
    ensures r.Some? ==> r.value in tiles && r.value.pos !in restricted
    ensures r.Some? ==> r.value.cell.resource.Some? && Unlocked(r.value.cell.resource.value, research)
    ensures r.Some? ==> forall t :: t in tiles && ResourceEligible(t, research, restricted) ==>
                          Manhattan(r.value.pos, from) <= Manhattan(t.pos, from)
    ensures r.None? <==> forall t :: t in tiles ==> !ResourceEligible(t, research, restricted)
  {
    var k := ClosestIndex(tiles, ResourceFilter(research, restricted), TileDistance(from));
    Lookup(tiles, k)
  }

  /** `get_closest_empty_tile` for a unit at `from`. */
  function ClosestEmptyTile(tiles: seq<Tile>, from: Pos, restricted: set<Pos>): (r: Option<Tile>)
    ensures r.Some? ==> r.value in tiles && r.value.pos !in restricted
    ensures r.Some? ==> forall t :: t in tiles && t.pos !in restricted ==>
                          Manhattan(r.value.pos, from) <= Manhattan(t.pos, from)
    ensures r.None? <==> forall t :: t in tiles ==> t.pos in restricted
  {
    var k := ClosestIndex(tiles, EmptyFilter(restricted), TileDistance(from));
    Lookup(tiles, k)
  }

  /** `get_closest_city_tile`: over every city tile of every city, ignoring
      the restricted positions; None exactly when the player has no city
      tile. Ties go to the first tile in city order, then tile order:
      every tile listed before the pick is strictly farther away. */
  function ClosestCityTile(cities: seq<City>, from: Pos): (r: Option<CityTile>)
    ensures r.None? <==> |AllCityTiles(cities)| == 0
    ensures r.Some? ==> r.value in AllCityTiles(cities)
    ensures r.Some? ==> forall t :: t in AllCityTiles(cities) ==>
                          Manhattan(r.value.pos, from) <= Manhattan(t.pos, from)
    ensures r.Some? ==> exists k :: 0 <= k < |AllCityTiles(cities)| && AllCityTiles(cities)[k] == r.value &&
                          forall j :: 0 <= j < k ==> Manhattan(r.value.pos, from) < Manhattan(AllCityTiles(cities)[j].pos, from)
  {
    if |cities| > 0 then
      var tiles := AllCityTiles(cities);
      var k := ClosestIndex(tiles, AnyCityTile(), CityTileDistance(from));
      assert k.Some? ==> forall j :: 0 <= j < k.value ==>
               Manhattan(tiles[k.value].pos, from) < Manhattan(tiles[j].pos, from);
      Lookup(tiles, k)
    else None
  }

  /** Among equally distant eligible resource tiles, the selector returns
      the one that comes first in row-major order: every other eligible
      tile of the map's resource scan is either farther away or later in
      the scan. */
  lemma ResourceTieBreakRowMajor(m: GameMap, from: Pos, research: Research, restricted: set<Pos>)
    requires WellFormed(m)
    ensures var tiles := ResourceTiles(m);
            var r := ClosestResourceTile(tiles, from, research, restricted);
            r.Some? ==> forall t :: t in tiles && ResourceEligible(t, research, restricted) && t != r.value ==>
                          Manhattan(r.value.pos, from) < Manhattan(t.pos, from) ||
                          RowMajorBefore(r.value.pos, t.pos)
  {
    var tiles := ResourceTiles(m);
    var ok := ResourceFilter(research, restricted);
    var cost := TileDistance(from);
    var k := ClosestIndex(tiles, ok, cost);
    if k.Some? {
      var w := tiles[k.value];
      forall t | t in tiles && ResourceEligible(t, research, restricted) && t != w
        ensures Manhattan(w.pos, from) < Manhattan(t.pos, from) || RowMajorBefore(w.pos, t.pos)
      {
        var j :| 0 <= j < |tiles| && tiles[j] == t;
        assert ok(tiles[j]);
        if j < k.value {
          assert cost(tiles[k.value]) < cost(tiles[j]);
        } else {
          assert j != k.value;
        }
      }
    }
  }

  /** The same tie-break for the empty-tile selector over the empty scan. */
  lemma EmptyTieBreakRowMajor(m: GameMap, from: Pos, restricted: set<Pos>)
    requires WellFormed(m)
    ensures var tiles := EmptyTiles(m);
            var r := ClosestEmptyTile(tiles, from, restricted);
            r.Some? ==> forall t :: t in tiles && t.pos !in restricted && t != r.value ==>
                          Manhattan(r.value.pos, from) < Manhattan(t.pos, from) ||
                          RowMajorBefore(r.value.pos, t.pos)
  {
    var tiles := EmptyTiles(m);
    var ok := EmptyFilter(restricted);
    var cost := TileDistance(from);
    var k := ClosestIndex(tiles, ok, cost);
    if k.Some? {
      var w := tiles[k.value];
      forall t | t in tiles && t.pos !in restricted && t != w
        ensures Manhattan(w.pos, from) < Manhattan(t.pos, from) || RowMajorBefore(w.pos, t.pos)
      {
        var j :| 0 <= j < |tiles| && tiles[j] == t;
        assert ok(tiles[j]);
        if j < k.value {
          assert cost(tiles[k.value]) < cost(tiles[j]);
        } else {
          assert j != k.value;
        }
      }
    }
  }
}

=== FILE: tracker.dfy ===
/** `UnitTracker` (StarterKit_1/tracker.py:4-17): the one piece of memory a
    unit keeps between turns, its committed destination. */
module Tracker {
  import opened Wrappers
  import opened Geometry
  import opened Game

  datatype UnitTracker = UnitTracker(unitId: UnitId, cityId: string, destination: Option<Pos>) {

    /** `unit_has_work`. */
    predicate HasWork() {
      destination.Some?
    }
  }

  /** The city id every tracker is created with; it is never read. */
  const PlaceholderCityId: string := "c_1"

  /** The tracker the refresh creates for a newly seen unit. */
  function NewTracker(id: UnitId): (t: UnitTracker)
    ensures t.unitId == id && !t.HasWork()
  {
    UnitTracker(id, PlaceholderCityId, None)
  }

  /** Committing a unit to `p` (agent.py:185, 201, 215) gives it work and
      touches nothing but the destination. */
  function SetDestination(t: UnitTracker, p: Pos): (r: UnitTracker)
    ensures r.HasWork() && r.destination == Some(p)
    ensures r.unitId == t.unitId && r.cityId == t.cityId
  {
    t.(destination := Some(p))
  }

  /** Clearing on arrival (agent.py:282-284): a tracker whose destination is
      the unit's position loses its work; any other tracker is kept. */
  function ClearOnArrival(t: UnitTracker, pos: Pos): (r: UnitTracker)
    ensures t.destination == Some(pos) ==> !r.HasWork()
    ensures t.destination != Some(pos) ==> r == t
    ensures r.unitId == t.unitId && r.cityId == t.cityId
  {
    if t.destination == Some(pos) then t.(destination := None) else t
  }
}

=== FILE: tracker_table.dfy ===
/** The tracker table refresh `update_unit_tracker_dict`
    (StarterKit_1/agent.py:259-284): drop the trackers of units that are
    gone, create a destination-less tracker for every new unit, and clear
    the destination of every unit standing on it. */
module TrackerTable {
  import opened Wrappers
  import opened Geometry
  import opened Game
  import opened Tracker

  type Table = map<UnitId, UnitTracker>

  /** `b` tracks the same ids as `a`, and every unit outside `ids` keeps
      its tracker: only the units in `ids` may have been given new work. */
  predicate KeepsOtherTrackers(a: Table, b: Table, ids: set<UnitId>) {
    && b.Keys == a.Keys
    && forall id :: id in a && id !in ids ==> b[id] == a[id]
  }

  /** The loop over `dead_units`: keep only ids of live units. */
  function DropDead(table: Table, units: seq<Unit>): (r: Table)
    ensures r.Keys == table.Keys * UnitIds(units)
    ensures forall id :: id in r ==> r[id] == table[id]
  {
    map id | id in table && id in UnitIds(units) :: table[id]
  }

  /** One pass of the creation loop for unit `u`. */
  function Register(table: Table, u: Unit): Table {
    if u.id !in table then table[u.id := NewTracker(u.id)]
    else table[u.id := ClearOnArrival(table[u.id], u.pos)]
  }

  /** The creation loop over `units`, in order. */
  function RegisterAll(table: Table, units: seq<Unit>): Table
    decreases |units|
  {
    if |units| == 0 then table else RegisterAll(Register(table, units[0]), units[1..])
  }

  /** The creation loop registers every live unit, whatever the ids. */
  lemma {:induction false} RegisterAllKeys(table: Table, units: seq<Unit>)
    ensures RegisterAll(table, units).Keys == table.Keys + UnitIds(units)
    decreases |units|
  {
    if |units| > 0 {
      RegisterAllKeys(Register(table, units[0]), units[1..]);
      assert forall v :: v in units <==> v == units[0] || v in units[1..];
    }
  }

  /** `update_unit_tracker_dict`. */
  function Refresh(table: Table, units: seq<Unit>): Table {
    RegisterAll(DropDead(table, units), units)
  }

  /** What the refresh leaves for a unit, given its previous tracker if any. */
  function Refreshed(prev: Option<UnitTracker>, u: Unit): UnitTracker {
    if prev.None? then NewTracker(u.id) else ClearOnArrival(prev.value, u.pos)
  }

  function Find(table: Table, id: UnitId): (r: Option<UnitTracker>)
    ensures r.Some? <==> id in table
    ensures id in table ==> r.value == table[id]
  {
    if id in table then Some(table[id]) else None
  }

  /** The creation loop, for units with distinct ids, is one independent
      update per unit: each unit's entry is its `Refreshed` tracker, and
      entries of other ids are untouched. */
  lemma {:induction false} RegisterAllSpec(table: Table, units: seq<Unit>)
    requires DistinctIds(units)
    ensures RegisterAll(table, units).Keys == table.Keys + UnitIds(units)
    ensures forall id :: id in table && id !in UnitIds(units) ==> RegisterAll(table, units)[id] == table[id]
    ensures forall i :: 0 <= i < |units| ==>
              RegisterAll(table, units)[units[i].id] == Refreshed(Find(table, units[i].id), units[i])
    decreases |units|
  {
    if |units| > 0 {
      var u := units[0];
      var rest := units[1..];
      var t1 := Register(table, u);
      DistinctTail(units);
      RegisterAllSpec(t1, rest);
      var r := RegisterAll(table, units);
      assert r == RegisterAll(t1, rest);
      assert UnitIds(units) == {u.id} + UnitIds(rest) by {
        forall id | id in UnitIds(units) ensures id in {u.id} + UnitIds(rest) {
          var v :| v in units && v.id == id;
          var k :| 0 <= k < |units| && units[k] == v;
          if k > 0 { assert rest[k - 1] == v; }
        }
      }
      assert u.id !in UnitIds(rest);
      forall i | 0 <= i < |units|
        ensures r[units[i].id] == Refreshed(Find(table, units[i].id), units[i])
      {
        if i == 0 {
          assert r[u.id] == t1[u.id];
        } else {
          assert units[i] == rest[i - 1];
          assert units[i].id in UnitIds(rest);
          assert units[i].id != u.id;
          assert Find(t1, units[i].id) == Find(table, units[i].id);
        }
      }
    }
  }

  /** After the refresh the table holds exactly the live units; a new unit
      has a destination-less tracker, a unit standing on its destination has
      it cleared, and every other tracker is kept unchanged. */
  lemma RefreshSpec(table: Table, units: seq<Unit>)
    requires DistinctIds(units)
    ensures Refresh(table, units).Keys == UnitIds(units)
    ensures forall u :: u in units && u.id !in table ==> Refresh(table, units)[u.id] == NewTracker(u.id)
    ensures forall u :: u in units && u.id in table && table[u.id].destination == Some(u.pos) ==>
              Refresh(table, units)[u.id] == table[u.id].(destination := None)
    ensures forall u :: u in units && u.id in table && table[u.id].destination != Some(u.pos) ==>
              Refresh(table, units)[u.id] == table[u.id]
  {
    var live := DropDead(table, units);
    RegisterAllSpec(live, units);
    forall u | u in units
      ensures Refresh(table, units)[u.id] == Refreshed(Find(table, u.id), u)
    {
      var i :| 0 <= i < |units| && units[i] == u;
      assert u.id in UnitIds(units);
      assert Find(live, u.id) == Find(table, u.id);
    }
  }

  /** A refreshed tracker never points at the tile its unit stands on. */
  lemma RefreshClearsArrivals(table: Table, units: seq<Unit>)
    requires DistinctIds(units)
    ensures Refresh(table, units).Keys == UnitIds(units)
    ensures forall u :: u in units ==> Refresh(table, units)[u.id].destination != Some(u.pos)
  {
    RefreshSpec(table, units);
  }

  /** Refreshing twice with the same units is refreshing once. */
  lemma RefreshIdempotent(table: Table, units: seq<Unit>)
    requires DistinctIds(units)
    ensures Refresh(Refresh(table, units), units) == Refresh(table, units)
  {
    var once := Refresh(table, units);
    RefreshSpec(table, units);
    RefreshSpec(once, units);
    var twice := Refresh(once, units);
    forall id | id in twice
      ensures twice[id] == once[id]
    {
      var u :| u in units && u.id == id;
    }
  }

  /** After the refresh a unit has work exactly when it was already tracked
      with a destination it has not reached; a newly seen unit has none. */
  lemma RefreshWork(table: Table, units: seq<Unit>, u: Unit)
    requires DistinctIds(units) && u in units
    ensures u.id in Refresh(table, units)
    ensures Refresh(table, units)[u.id].HasWork() <==>
              u.id in table && table[u.id].HasWork() && table[u.id].destination != Some(u.pos)
  {
    RefreshSpec(table, units);
  }
}

=== FILE: wrappers.dfy ===
/** The optional value the agent's selectors return in place of `None`. */
module Wrappers {

  datatype Option<+T> = None | Some(value: T)
}
